=== FILE: README.md ===
# Jordan tourism assistant: the recommendation core in Dafny

This project models the recommendation pipeline of `app.py`, a chatbot back end that
advises visitors to Jordan when to go to a site and which lesser-known site to stop at on
the way. It models the steps between the language model's answers and the final prompt:

- reading the model's replies: the "None" sentinel and the off-topic "yes" test (`Intent`,
  built on the whitespace, case and substring helpers in `Text`);
- the crowd prediction: the 24-reading window before the visit time and the bucketing into
  Low, Moderate and High (`Crowd`);
- the weather: `analyze_weather` and both modes of `choose_weather` (`Weather`);
- the geocoding cache keyed by the lower-cased, stripped place name (`Geocode`);
- the detour choice `filter_sites_on_the_way` (`Detour`);
- the `less_known_sites` table with its UNIQUE name and AUTOINCREMENT id, and the add,
  update and delete routes over it with their required-field test (`Sites`);
- the scheduling decision inside `build_prompt`, as an `Advice` value instead of prompt
  text (`Advisor`).

Everything external is a parameter:

- the regression model and scaler are the functions `scale` and `predict`;
- the forecast is a sequence of `Sample`s;
- the geocoder's answer for each key is a function `geo`;
- the route is a sequence of waypoints;
- `haversine_distance` is an uninterpreted `Distance`;
- `random.choice` is an index `pick`;
- the crowd predictor seen by `build_prompt` is a function `crowdAt` from the visit minute
  to a level or an error.

The Python exceptions on these paths are modelled as a `Failure` of `Common.Fault`, except
those listed under "## Left out".

Times are minutes of the day (0 to 1439). Forecast entries carry an hour counted from
today's midnight. So "before 18:00 today" is `hour < 18`, and the time of day
`predict_crowd` sees for a forecast hour is `hour % 24`.

Site names in the table are compared exactly. SQLite's UNIQUE constraint on `site_name`
uses binary comparison, so "Petra" and "petra" are two different sites. Only the geocoding
cache normalizes names.

## Model

| member | source | states |
|---|---|---|
| Intent.ExtractField | app.py:167-178 | A reply that contains "None" anywhere means the field is absent. Any other reply yields itself without its surrounding whitespace. The result has no whitespace at either end, sits inside the reply with only whitespace around it, and never contains "None". |
| Intent.MarkerAnywhereMeansAbsent | app.py:176 | "None" embedded anywhere in a reply, even inside another word, makes the field absent. |
| Intent.IsOffTopic | app.py:496-498 | The message is off-topic exactly when the stripped reply is "yes" in any mix of upper and lower case. |
| Text.LowerSpec | app.py:211 | `lower()` keeps the length and maps each character on its own: an ASCII capital becomes its small letter, anything else is kept. |
| Text.ContainsOf | app.py:176 | `pattern in s` holds whenever `s` is some text, the pattern, then some more text. |
| Text.ContainsSplit | app.py:176 | Conversely, when `pattern in s` holds, `s` is some text, the pattern, then some more text. |
| Text.StripSpec | app.py:178 | `strip()` leaves no whitespace at either end and removes only whitespace, from both ends. |
| Text.NormalizeIdempotent | app.py:211 | Normalizing a name that is already a cache key gives that key back. |
| Crowd.Bucket | app.py:197-202 | The three bands are total and disjoint: at least 80 is High, below 10 is Low, and anything in between is Moderate. |
| Crowd.BucketMonotone | app.py:197-202 | A larger prediction never gives a quieter level. |
| Crowd.BucketBoundaries | app.py:197-202 | 80 is already High and 10 is already Moderate. |
| Crowd.MatchIndex | app.py:190-191 | The position found is the first reading stamped with the visit time. None means no reading carries that time. |
| Crowd.Features | app.py:189-193 | A visit time missing from the history is an error. So is a match with fewer than 24 readings before it. Otherwise the window is the 24 scaled counts just before the match, in order. |
| Crowd.PredictCrowd | app.py:180-202 | No reading stamped with the visit time is an error, and so is a first such reading among the first 24. Otherwise the level is the bucket of the prediction on the 24 scaled counts just before the first reading with that time. |
| Crowd.PredictIgnoresLaterReadings | app.py:189-193 | Readings appended after the matched row never change the prediction. |
| Weather.Analyze | app.py:289-301 | The tests run hot, then severe code, then cold. The "suggest another time" flag is set exactly when the temperature is above 35 or the code is 61, 63, 65 or 95. |
| Weather.HourIndex | app.py:266-268 | `times.index` finds the first entry of the target hour, and misses only when no entry has that hour. |
| Weather.ExactHour | app.py:257-259 | Without the flag, the answer is the first entry of the visit's hour, with the minutes dropped. There is no answer when no entry has that hour. |
| Weather.LookAhead | app.py:262-278 | A target hour missing from the forecast is an error. Otherwise only the entry right after it is examined, and it is returned exactly when it is before 18:00 and either below 35 degrees or not severe. |
| Weather.LookAheadExaminesOnlyNext | app.py:268-278 | Entries beyond the one after the target hour never change the look-ahead. |
| Weather.LookAheadAcceptsVersusAnalyze | app.py:271 | Before 18:00 the look-ahead test accepts every hour `analyze_weather` finds favourable. The unfavourable hours it accepts are exactly the very hot dry ones and the rainy ones under 35 degrees. The hours it rejects are rainy and at least 35 degrees, or at or after 18:00. |
| Weather.LookAheadAcceptsHotClearHour | app.py:271 | A 40-degree clear-sky hour passes the look-ahead test, although `analyze_weather` calls it very hot. |
| Weather.LookAheadIsLaterSameDay | app.py:268-271 | On an hourly forecast, a look-ahead answer is the next hour, still before 18:00. |
| Geocode.KeyMeaning | app.py:211 | The cache key is the lower-cased name with its surrounding whitespace removed and nothing else removed, and it holds no capital ASCII letter. |
| Geocode.Resolve | app.py:209-230 | A hit returns the cached pair and leaves the cache alone. An OK miss adds exactly that key with the provider's location. Any other miss returns the (None, None) pair and leaves the cache alone. |
| Geocode.ResolveKeepsKeysNormal | app.py:211-227 | The cache only ever holds lower-cased, stripped keys. |
| Geocode.RepeatLookupHitsCache | app.py:211-215 | After a successful lookup, every spelling with the same key is answered from the cache, whatever the provider would say. |
| Geocode.Known | app.py:209-230 | Within one request, a name resolves exactly when its key was cached or the provider accepts it. |
| Geocode.ResolveFollowsKnown | app.py:209-230 | Any lookup during a request returns what the starting cache and the provider determine, and the cache stays consistent with both. |
| Geocode.KnownStable | app.py:213-215 | Growing the cache during a request does not change what a name resolves to. |
| Detour.Proximity | app.py:355-360 | A site is near exactly when some waypoint is under 5 km away. A near site keeps that waypoint's distance. Otherwise it keeps the distance to the last waypoint, not the minimum. |
| Detour.Nearest | app.py:368 | The chosen entry has the smallest recorded distance, and it is the first such entry. |
| Detour.Scan | app.py:350-360 | The distance map lists the candidates in order, all of them unless a lookup failed. Every on-the-way site and the site that failed are candidates. |
| Detour.Choose | app.py:362-368 | A failed lookup is raised as that site's error. Otherwise there is an error exactly when both the list and the map are empty. A non-empty on-the-way list gives one of its sites. Otherwise the answer is the first entry with the smallest recorded distance. |
| Detour.Detour | app.py:334-368 | An empty route gives no suggestion. Any suggestion is one of the candidates. An error names a candidate that could not be located, or there were no candidates at all. |
| Detour.ScanExtends | app.py:352-353 | The candidate loop adds to the cache only what the provider accepts. |
| Detour.ScanFailure | app.py:352-357 | The candidate loop raises exactly when a candidate cannot be located, and it raises at the first such candidate. |
| Detour.ScanRecorded | app.py:352-357 | Without a failure, the distance map has one entry per candidate, in order, holding the distance the waypoint loop left. |
| Detour.ScanOnWay | app.py:355-360 | Without a failure, the on-the-way list holds exactly the candidates near the route. |
| Detour.ScanNoneOnWay | app.py:355-360 | When no candidate is near the route, the on-the-way list is empty. |
| Detour.DetourCache | app.py:338-339 | The origin and destination lookups leave a cache that answers as the starting one did. |
| Detour.DetourSurvey | app.py:338-360 | The candidate-loop facts hold for the cache the request started with. |
| Detour.DetourUnresolvable | app.py:352-357 | A candidate that cannot be located makes the selection raise, at the first such candidate. |
| Detour.DetourWithoutCandidates | app.py:362-368 | A route with no candidates is an error. |
| Detour.DetourPrefersOnTheWay | app.py:364-365 | When some candidate is near the route, the suggestion is a candidate near the route. |
| Detour.ChooseCanPick | app.py:365 | Every on-the-way site is the result of some draw. |
| Detour.DetourCanPickAnyOnTheWay | app.py:364-365 | Every candidate near the route can be the suggestion. |
| Detour.DetourFallsBackToNearest | app.py:366-368 | When no candidate is near, the suggestion is the candidate closest to the last waypoint, the earliest one on a tie. |
| Detour.ChooseNearest | app.py:366-368 | With every candidate located and none near, the return statements give the candidate closest to the last waypoint, the earliest one on a tie. |
| Detour.DetourNearSiteWins | app.py:352-365 | With one waypoint, a site 3 km away beats a site 50 km away whatever the draw. |
| Sites.AddSite | app.py:91-103 | A new name takes the next id with "Site added successfully!", and the id counter advances by one. A name already present gives (False, "Site already exists!") and leaves the table unchanged. Names stay unique either way. |
| Sites.UpdateSite | app.py:119-128 | A missing id matches nothing and changes nothing. A new name held by another row raises. Otherwise the row is replaced and the result reports a match. |
| Sites.DeleteSite | app.py:130-136 | The result reports a deletion exactly when a row had the name. Afterwards no row has it, and every other row is kept. |
| Sites.ClearSites | app.py:138-143 | Every row goes, but the id counter does not restart. |
| Sites.RowNamed | app.py:74-79 | `get_site_by_name` finds the unique row with that name, or nothing. |
| Sites.QuerySiteInfo | app.py:371-377 | Returns the named row's description and category, or ("a place of interest", "General") when no row has the name. |
| Sites.AddThenQuery | app.py:91-103 | A site just added is what `query_site_info` reports for its name. |
| Sites.AddThenDelete | app.py:130-136 | Adding a site and then deleting it by name restores the rows. |
| Sites.AddTwice | app.py:97-103 | Adding a name a second time fails and leaves the table as the first add left it. |
| Sites.Decimal | app.py:673 | The integer id becomes a non-empty run of decimal digits when compared with the TEXT column, in canonical form: one digit exactly below 10, and a leading "0" only for 0 itself, so 7 is "7" and never "07". |
| Sites.DecimalRoundTrip | app.py:673 | Reading the decimal text back gives the id, so distinct ids give distinct texts. |
| Sites.DeleteRoute | app.py:670-678 | The DELETE route, as written, deletes the row whose name is the id's text. |
| Sites.DeleteRouteMissesId | app.py:670-678 | Take a table whose only row is "Petra" under id 1. Deleting id 1 reports "Site not found" and keeps the row. |
| Sites.DeleteById | app.py:670-678 | Corrected route: removes exactly the row with that id, and reports whether there was one. |
| Sites.AddThenDeleteById | app.py:670-678 | Adding a site and then deleting the id it received restores the rows. |
| Sites.AddRoute | app.py:619-642 | The answer is 200 exactly when all three fields are present and non-empty and the name is new; the site then takes the next id and the counter advances by one. Otherwise it is 400 and the table is unchanged, with the required-fields message when a field is missing or empty and "Site already exists!" when the fields are complete but the name is taken. |
| Sites.UpdateRoute | app.py:644-667 | 400 exactly when a field is missing or empty. Otherwise 404 exactly when the id is absent, 500 exactly when another row has the name, and 200 with that row replaced. Every answer but 200 leaves the table unchanged. |
| Sites.RoutesKeepTableFilled | app.py:628-656 | A table written only through the two routes never stores an empty name, category or description. |
| Advisor.QuietFrom | app.py:447-458 | The hourly scan from the requested time up to 18:00 inclusive returns the first slot predicted Moderate or Low, after High slots only. It returns nothing when every slot is High, and it raises on the first failing prediction. |
| Advisor.QuietFromFindsEarliest | app.py:450-457 | The first calm slot before closing, preceded only by busy slots, is the one the scan returns. |
| Advisor.QuietFromFindsNothing | app.py:450-458 | When every slot up to closing is busy, the scan finds nothing. |
| Advisor.Note | app.py:468-474 | The detour note appears exactly when the suggestion is non-empty, and it names that site. It carries the description and category of the row with that name, or ("a place of interest", "General") when no row has it. |
| Advisor.Decide | app.py:414-465 | The advice proposes another time of day or says "not today" exactly when the weather flag is set. Every exception is fatal, never replaced by a default: on bad weather the request fails with HourNotInForecast exactly when the target hour is missing (app.py:266-268), and with the predictor's error exactly when the crowd prediction for the accepted next hour fails (app.py:429); on fine, crowded weather it fails exactly when the scan's prediction does (app.py:453); fine weather with a crowd that is not High never fails. |
| Advisor.DecideNotToday | app.py:417-421 | Bad weather with no usable next hour gives "not advisable today" and forces the crowd level to low. |
| Advisor.DecideLaterHour | app.py:422-433 | Bad weather with a usable next hour proposes that hour with the crowd predicted for its time of day. The crowding caveat appears exactly when that crowd is High. |
| Advisor.DecideQuieterSlot | app.py:441-460 | On a fine, crowded day, the earliest calm slot up to 18:00 is the suggested time. |
| Advisor.DecideAltCrowdIsEarliest | app.py:441-460 | On a fine, crowded day, any suggested time is such an earliest calm slot. |
| Advisor.DecideNoBetterSlot | app.py:441-463 | On a fine, crowded day, "no less crowded slot" is given exactly when every slot up to 18:00 is predicted High. |
| Advisor.DecideAfterClosing | app.py:447-463 | A request after 18:00 on a fine, crowded day never finds a quieter slot. |
| Advisor.DecideAsPlanned | app.py:435-465 | Fine weather and a crowd that is not High leave the visit as planned. |
| Advisor.DecideAltCrowdIsLater | app.py:447-458 | The scan re-checks the requested time first. When that time is High, any suggestion is at least an hour later. |
| Advisor.HotDayWithRainAfter | app.py:417-421 | At 40 degrees, with rain in the next hour, the answer is "not today" with crowd low. |
| Advisor.CrowdedThenModerate | app.py:441-460 | When 10:00 is High and 11:00 is Moderate, the suggestion is 11:00. |

## Left out

- The Flask app object, the templates, the read-only routes and server start-up are HTTP plumbing. The add, update and delete routes are modelled by their status, message and effect on the table.
- The routes' JSON fields are modelled as strings that may be missing. A JSON number, list or other non-string value is not modelled.
- Calls to the geocoding, directions, open-meteo and local language-model services are network I/O. Their answers are parameters.
- Loading the model, the scaler and the CSV, and the regression's floating-point arithmetic, are opaque. They are the functions `scale` and `predict` and a sequence of readings.
- `haversine_distance` is floating-point trigonometry. It is an uninterpreted distance function.
- `random.choice` is an index parameter. The lemmas speak of every possible draw.
- Prompt text, `strftime` formatting, the weather-description table and dateutil parsing are presentation and a foreign parser. The plan records the facts the text is built from.
- Saving and loading the location-cache JSON file is file I/O.
- `generate_chatbot_response`, which chains the steps above, is not modelled as one function. Each step it calls is modelled.
- `get_all_sites`, `get_sensor_data_by_site` and `add_sensor_data` are plain queries with no logic.
- The add and update functions' parameters are strings. Python could pass None and hit the NOT NULL constraint, but the routes test the fields first.
- `Text.Lower` folds ASCII letters only, not all of Unicode. That is enough for the "yes" test, because no other character lower-cases to y, e or s. It is not enough for the geocoding cache key (`Geocode.Key`, `Text.Normalize`): Python's `"ÄQABA".lower().strip()` and `"äqaba".lower().strip()` are the same key, while the model gives two keys. So for names with non-ASCII capitals `Geocode.Resolve`, `Geocode.Known`, `Geocode.RepeatLookupHitsCache` and the `Detour` lemmas speak of separate cache entries where Python shares one.
- `Sites.UpdateRoute`, `Sites.UpdateSite`, `Sites.DeleteRoute`: ids are unbounded naturals. Flask's `<int:site_id>` accepts any digit string, and sqlite3 raises OverflowError when binding an id of 2^63 or more (app.py:123-126, app.py:134), which the routes answer with 500 and the error text (app.py:666-667, app.py:680-681). The model instead reports no match: `UpdateSite` gives an unmatched success, `UpdateRoute` answers 404 "Site not found", and `DeleteRoute` reports nothing deleted.
- `Crowd.PredictCrowd`: the visit time is whole minutes, so its seconds are dropped. Python matches the readings with `df['datetime'] == visit_datetime` on the full time (app.py:190). For a visit time such as 10:00:30 no hourly reading matches, and `idx[0]` raises an IndexError (app.py:191). The model receives minute 600 and can return a level.
- `Advisor.QuietFrom`: the visit time is whole minutes, so its seconds are dropped. Python compares the full time with 18:00 (app.py:450). At 18:00:30 Python skips the scan, while the model (minute 1080) checks 18:00. At 17:00:30 Python checks only 17:00:30, while the model (minute 1020) checks 17:00 and 18:00. The same applies to `Advisor.Decide` and its lemmas.
- `Detour.Choose`: a route with no candidates actually raises a NameError at app.py:363, before the `min` at app.py:368. Both are uncaught errors, and the model reports `NoCandidates` for either.

## Findings

| source | as written | input that shows it | evidently intended | confidence | as-written member | corrected member |
|---|---|---|---|---|---|---|
| app.py:670-678 | the DELETE route passes the integer id to `delete_site`, which matches it against `site_name`; SQLite compares the id's decimal text with the name | a table whose only row is "Petra" with id 1; DELETE /api/sites/1 | delete the row whose id is 1 | high, not executed | Sites.DeleteRouteMissesId | Sites.DeleteById |

=== FILE: advisor.dfy ===
/** The scheduling decision inside build_prompt: what the assistant advises about the visit
    time, as a datatype instead of prompt text. The crowd predictor is a function of the
    visit minute; the forecast series is an input. */
module Advisor {
  import opened Common
  import opened Crowd
  import opened Weather
  import opened Sites
  import Intent

  /** The last visit minute the crowd scan still tries: 18:00, inclusive. */
  const ClosingMinute: int := ClosingHour * 60

  datatype Advice =
    | AsPlanned                                          // good weather, crowd not high
    | NotToday                                           // bad weather and no usable later hour
    | AltWeather(slot: Sample, crowd: Level, caveat: bool) // a later hour with its crowd
    | AltCrowd(at: int)                                  // a quieter minute the same day
    | NoBetterSlot                                       // crowded until closing

  /** The "additional recommendation" paragraph: the suggested site and what query_site_info
      says about it. */
  datatype DetourNote = DetourNote(site: string, description: string, category: string)

  /** Everything the prompt is built from: the weather verdict, the advice, the crowd level
      the function ends with, and the detour note. */
  datatype Plan = Plan(verdict: Verdict, advice: Advice, crowd: Level, detour: Option<DetourNote>)

  /** The k-th time the crowd scan tries: `perfect_time += timedelta(hours=1)` k times. */
  function Slot(m: int, k: nat): int {
    m + 60 * k
  }

  /** The visit minute predict_crowd sees for a forecast hour: it keeps only the time of day. */
  function ClockMinute(hour: int): int {
    (hour % 24) * 60
  }

  predicate Busy(crowdAt: int -> Result<Level, Fault>, t: int) {
    crowdAt(t) == Success(High)
  }

  predicate Calm(crowdAt: int -> Result<Level, Fault>, t: int) {
    crowdAt(t).Success? && crowdAt(t).value != High
  }

  /** Every slot from the k-th up to, not including, the j-th is predicted High. */
  predicate BusyBetween(crowdAt: int -> Result<Level, Fault>, m: int, k: nat, j: nat) {
    forall i: nat :: k <= i < j ==> Busy(crowdAt, Slot(m, i))
  }

  /** The while loop over perfect_time, from the k-th slot on: the step of the first slot
      whose crowd is Moderate or Low, None once past closing, or the predictor's error. */
  function QuietFrom(crowdAt: int -> Result<Level, Fault>, m: int, k: nat): (r: Result<Option<nat>, Fault>)
    ensures r.Success? && r.value.Some? ==>
      var j := r.value.value;
      k <= j && Slot(m, j) <= ClosingMinute && Calm(crowdAt, Slot(m, j)) && BusyBetween(crowdAt, m, k, j)
    ensures r.Success? && r.value.None? ==>
      forall i: nat :: k <= i && Slot(m, i) <= ClosingMinute ==> Busy(crowdAt, Slot(m, i))
    ensures r.Failure? ==>
      exists j: nat :: k <= j && Slot(m, j) <= ClosingMinute && crowdAt(Slot(m, j)) == Failure(r.error) && BusyBetween(crowdAt, m, k, j)
    decreases ClosingMinute + 1 - Slot(m, k)
  {
    if Slot(m, k) > ClosingMinute then Success(None)
    else match crowdAt(Slot(m, k))
      case Failure(e) => Failure(e)
      case Success(level) =>
        if level != High then Success(Some(k))
        else
          var r := QuietFrom(crowdAt, m, k + 1);
          assert forall i: nat :: k < i ==> Slot(m, i) == Slot(m, k + 1) + 60 * (i - k - 1);
          r
  }

  /** The converse: the first calm slot before closing, after busy ones only, is the answer. */
  lemma {:induction false} QuietFromFindsEarliest(crowdAt: int -> Result<Level, Fault>, m: int, k: nat, j: nat)
    requires k <= j && Slot(m, j) <= ClosingMinute
    requires Calm(crowdAt, Slot(m, j)) && BusyBetween(crowdAt, m, k, j)
    ensures QuietFrom(crowdAt, m, k) == Success(Some(j))
    decreases j - k
  {
    if k < j {
      assert Busy(crowdAt, Slot(m, k));
      QuietFromFindsEarliest(crowdAt, m, k + 1, j);
    }
  }

  /** The converse: when every slot up to closing is busy, the loop finds nothing. */
  lemma {:induction false} QuietFromFindsNothing(crowdAt: int -> Result<Level, Fault>, m: int, k: nat)
    requires forall i: nat :: k <= i && Slot(m, i) <= ClosingMinute ==> Busy(crowdAt, Slot(m, i))
    ensures QuietFrom(crowdAt, m, k) == Success(None)
    decreases ClosingMinute + 1 - Slot(m, k)
  {
    if Slot(m, k) <= ClosingMinute {
      assert Busy(crowdAt, Slot(m, k));
      QuietFromFindsNothing(crowdAt, m, k + 1);
    }
  }

  /** The note for the suggested site: present exactly when the suggestion is a non-empty
      name, and then carrying the description and category of the table row with that name,
      or the fallback pair when no row has it. */
  function Note(table: SiteTable, suggested: Option<string>): (r: Option<DetourNote>)
    ensures r.Some? <==> (suggested.Some? && suggested.value != "")
    ensures r.Some? ==> r.value.site == suggested.value
    ensures r.Some? ==> forall id :: id in table.rows && table.rows[id].name == suggested.value ==>
      r.value.description == table.rows[id].description && r.value.category == table.rows[id].category
    ensures r.Some? && !HasName(table, suggested.value) ==>
      r.value.description == DefaultDescription && r.value.category == DefaultCategory
  {
    if Intent.Given(suggested) then
      var (description, category) := QuerySiteInfo(table, suggested.value);
      Some(DetourNote(suggested.value, description, category))
    else None
  }

  /** build_prompt(site, m, crowd0, weather, suggested) up to the prompt text. `weather` is
      the sample of the requested hour; an exception in choose_weather or predict_crowd is the
      Failure. */
  function Decide(m: int, crowd0: Level, weather: Sample, series: seq<Sample>,
                  crowdAt: int -> Result<Level, Fault>, suggested: Option<string>, table: SiteTable): (r: Result<Plan, Fault>)
    requires 0 <= m < 1440
    ensures r.Success? ==> r.value.verdict == Analyze(weather.temp, weather.code) && r.value.detour == Note(table, suggested)
    ensures r.Success? ==> (r.value.verdict.unfavourable <==> r.value.advice.NotToday? || r.value.advice.AltWeather?)
    ensures r.Failure? && !Analyze(weather.temp, weather.code).unfavourable ==> crowd0 == High
    // Every exception is fatal: the request fails exactly where choose_weather or
    // predict_crowd raises, with that error, and never falls back to a default answer.
    ensures Analyze(weather.temp, weather.code).unfavourable && HourIndex(series, TargetHour(m)).None? ==>
      r == Failure(HourNotInForecast)
    ensures Analyze(weather.temp, weather.code).unfavourable && LookAhead(series, m).Success? ==>
      match LookAhead(series, m).value
      case None => r.Success?
      case Some(s) =>
        && (r.Failure? <==> crowdAt(ClockMinute(s.hour)).Failure?)
        && (r.Failure? ==> r.error == crowdAt(ClockMinute(s.hour)).error)
    ensures !Analyze(weather.temp, weather.code).unfavourable && crowd0 == High ==>
      (r.Failure? <==> QuietFrom(crowdAt, m, 0).Failure?)
      && (r.Failure? ==> r.error == QuietFrom(crowdAt, m, 0).error)
    ensures !Analyze(weather.temp, weather.code).unfavourable && crowd0 != High ==> r.Success?
  {
    var verdict := Analyze(weather.temp, weather.code);
    var note := Note(table, suggested);
    if verdict.unfavourable then
      var next :- LookAhead(series, m);
      match next
      case None => Success(Plan(verdict, NotToday, Low, note))
      case Some(s) =>
        var level :- crowdAt(ClockMinute(s.hour));
        Success(Plan(verdict, AltWeather(s, level, level == High), level, note))
    else if crowd0 == High then
      var found :- QuietFrom(crowdAt, m, 0);
      match found
      case None => Success(Plan(verdict, NoBetterSlot, crowd0, note))
      case Some(j) => Success(Plan(verdict, AltCrowd(Slot(m, j)), crowd0, note))
    else Success(Plan(verdict, AsPlanned, crowd0, note))
  }

  /** Bad weather with no usable later hour: "not advisable today", and the crowd level is
      forced to low. */
  lemma DecideNotToday(m: int, crowd0: Level, weather: Sample, series: seq<Sample>,
                       crowdAt: int -> Result<Level, Fault>, suggested: Option<string>, table: SiteTable)
    requires 0 <= m < 1440
    requires Analyze(weather.temp, weather.code).unfavourable
    requires HourIndex(series, TargetHour(m)).Some?
    requires var i := HourIndex(series, TargetHour(m)).value;
      i + 1 == |series| || !LookAheadAccepts(series[i + 1])
    ensures var r := Decide(m, crowd0, weather, series, crowdAt, suggested, table);
      r.Success? && r.value.advice == NotToday && r.value.crowd == Low
  {
  }

  /** Bad weather and a usable next hour: that hour is proposed with the crowd predicted for
      its time of day, and the crowding caveat is given exactly when that crowd is High. */
  lemma DecideLaterHour(m: int, crowd0: Level, weather: Sample, series: seq<Sample>,
                        crowdAt: int -> Result<Level, Fault>, suggested: Option<string>, table: SiteTable)
    requires 0 <= m < 1440
    requires Analyze(weather.temp, weather.code).unfavourable
    requires HourIndex(series, TargetHour(m)).Some?
    requires var i := HourIndex(series, TargetHour(m)).value;
      i + 1 < |series| && LookAheadAccepts(series[i + 1]) && crowdAt(ClockMinute(series[i + 1].hour)).Success?
    ensures var r := Decide(m, crowd0, weather, series, crowdAt, suggested, table);
      var s := series[HourIndex(series, TargetHour(m)).value + 1];
      && r.Success?
      && r.value.advice.AltWeather?
      && r.value.advice.slot == s
      && s.hour < ClosingHour
      && r.value.advice.crowd == crowdAt(ClockMinute(s.hour)).value
      && (r.value.advice.caveat <==> crowdAt(ClockMinute(s.hour)) == Success(High))
  {
  }

  /** Good weather and a High crowd: the suggestion is the earliest hourly slot from the
      requested time up to 18:00 whose predicted crowd is Moderate or Low. */
  lemma DecideQuieterSlot(m: int, weather: Sample, series: seq<Sample>,
                          crowdAt: int -> Result<Level, Fault>, suggested: Option<string>, table: SiteTable, j: nat)
    requires 0 <= m < 1440
    requires !Analyze(weather.temp, weather.code).unfavourable
    requires Slot(m, j) <= ClosingMinute && Calm(crowdAt, Slot(m, j)) && BusyBetween(crowdAt, m, 0, j)
    ensures Decide(m, High, weather, series, crowdAt, suggested, table)
         == Success(Plan(Analyze(weather.temp, weather.code), AltCrowd(Slot(m, j)), High, Note(table, suggested)))
  {
    QuietFromFindsEarliest(crowdAt, m, 0, j);
  }

  /** Good weather and a High crowd: a suggested time is always such an earliest slot. */
  lemma DecideAltCrowdIsEarliest(m: int, weather: Sample, series: seq<Sample>,
                                 crowdAt: int -> Result<Level, Fault>, suggested: Option<string>, table: SiteTable)
    requires 0 <= m < 1440
    requires !Analyze(weather.temp, weather.code).unfavourable
    requires var r := Decide(m, High, weather, series, crowdAt, suggested, table);
      r.Success? && r.value.advice.AltCrowd?
    ensures var t := Decide(m, High, weather, series, crowdAt, suggested, table).value.advice.at;
      exists j: nat :: t == Slot(m, j) && t <= ClosingMinute && Calm(crowdAt, t) && BusyBetween(crowdAt, m, 0, j)
  {
    var j := QuietFrom(crowdAt, m, 0).value.value;
    assert Calm(crowdAt, Slot(m, j));
  }

  /** Good weather and a High crowd: "no less crowded slot" exactly when every slot up to
      18:00 is predicted High. */
  lemma DecideNoBetterSlot(m: int, weather: Sample, series: seq<Sample>,
                           crowdAt: int -> Result<Level, Fault>, suggested: Option<string>, table: SiteTable)
    requires 0 <= m < 1440
    requires !Analyze(weather.temp, weather.code).unfavourable
    ensures var r := Decide(m, High, weather, series, crowdAt, suggested, table);
      (r.Success? && r.value.advice == NoBetterSlot)
        <==> forall i: nat :: Slot(m, i) <= ClosingMinute ==> Busy(crowdAt, Slot(m, i))
  {
    if forall i: nat :: Slot(m, i) <= ClosingMinute ==> Busy(crowdAt, Slot(m, i)) {
      QuietFromFindsNothing(crowdAt, m, 0);
    }
  }

  /** A request after 18:00 on a crowded, fine day has no quieter slot: the loop never runs. */
  lemma DecideAfterClosing(m: int, weather: Sample, series: seq<Sample>,
                           crowdAt: int -> Result<Level, Fault>, suggested: Option<string>, table: SiteTable)
    requires ClosingMinute < m < 1440
    requires !Analyze(weather.temp, weather.code).unfavourable
    ensures Decide(m, High, weather, series, crowdAt, suggested, table).value.advice == NoBetterSlot
  {
    QuietFromFindsNothing(crowdAt, m, 0);
  }

  /** Good weather and a crowd that is not High: the visit stays as planned. */
  lemma DecideAsPlanned(m: int, crowd0: Level, weather: Sample, series: seq<Sample>,
                        crowdAt: int -> Result<Level, Fault>, suggested: Option<string>, table: SiteTable)
    requires 0 <= m < 1440
    requires !Analyze(weather.temp, weather.code).unfavourable && crowd0 != High
    ensures Decide(m, crowd0, weather, series, crowdAt, suggested, table)
         == Success(Plan(Analyze(weather.temp, weather.code), AsPlanned, crowd0, Note(table, suggested)))
  {
  }

  /** The scan re-checks the requested time first; a predictor that agrees it is High moves
      any suggestion at least an hour later. */
  lemma DecideAltCrowdIsLater(m: int, weather: Sample, series: seq<Sample>,
                              crowdAt: int -> Result<Level, Fault>, suggested: Option<string>, table: SiteTable)
    requires 0 <= m < 1440
    requires !Analyze(weather.temp, weather.code).unfavourable
    requires Busy(crowdAt, m)
    requires var r := Decide(m, High, weather, series, crowdAt, suggested, table);
      r.Success? && r.value.advice.AltCrowd?
    ensures Decide(m, High, weather, series, crowdAt, suggested, table).value.advice.at >= m + 60
  {
    var j := QuietFrom(crowdAt, m, 0).value.value;
    assert Slot(m, 0) == m;
  }

  /** 11:00, 40 degrees and clear, the next hour also 40 degrees but in rain: not today. */
  lemma HotDayWithRainAfter(crowdAt: int -> Result<Level, Fault>, table: SiteTable)
    ensures var series := [Sample(11, 40.0, 0), Sample(12, 40.0, 63)];
      var r := Decide(660, High, Sample(11, 40.0, 0), series, crowdAt, None, table);
      r == Success(Plan(Verdict(Hot, true), NotToday, Low, None))
  {
    var series := [Sample(11, 40.0, 0), Sample(12, 40.0, 63)];
    assert HourIndex(series, 11) == Some(0);
  }

  /** 10:00 crowded, 11:00 moderate: the suggestion is 11:00. */
  lemma CrowdedThenModerate(crowdAt: int -> Result<Level, Fault>, table: SiteTable)
    requires crowdAt(600) == Success(High) && crowdAt(660) == Success(Moderate)
    ensures Decide(600, High, Sample(10, 25.0, 0), [], crowdAt, None, table).value.advice == AltCrowd(660)
  {
    DecideQuieterSlot(600, Sample(10, 25.0, 0), [], crowdAt, None, table, 1);
  }
}

=== FILE: common.dfy ===
/** Shared result types and the error conditions the assistant can run into. */
module Common {

  datatype Option<+T> = None | Some(value: T)

  /** Success or the exception the Python code would raise at that point. */
  datatype Result<+R, +E> = Success(value: R) | Failure(error: E) {
    predicate IsFailure() {
      Failure?
    }

    function PropagateFailure<U>(): Result<U, E>
      requires Failure?
    {
      Failure(error)
    }

    function Extract(): R
      requires Success?
    {
      value
    }
  }

  /** The uncaught exceptions of the recommendation pipeline and the site table. */
  datatype Fault =
    | TimeNotInHistory            // idx[0] on an empty pandas index
    | ShortHistory                // fewer than 24 features reach model.predict
    | HourNotInForecast           // times.index(target_time) misses
    | CandidateNotFound(site: string) // haversine_distance on the (None, None) pair
    | NoCandidates                // no lesser-known site to take the minimum over
    | NameTaken                   // UNIQUE constraint violated by an UPDATE

  /** The first position of `s` whose element satisfies `p`, if any. */
  function FindFirst<T>(s: seq<T>, p: T -> bool): (r: Option<nat>)
    ensures r.None? <==> forall i :: 0 <= i < |s| ==> !p(s[i])
    ensures r.Some? ==> r.value < |s| && p(s[r.value])
    ensures r.Some? ==> forall i :: 0 <= i < r.value ==> !p(s[i])
  {
    if |s| == 0 then None
    else if p(s[0]) then Some(0)
    else match FindFirst(s[1..], p)
      case None => None
      case Some(i) => Some(i + 1)
  }

  /** FindFirst only looks as far as its first hit: appending elements does not move it. */
  lemma {:induction false} FindFirstAppend<T>(s: seq<T>, more: seq<T>, p: T -> bool)
    requires FindFirst(s, p).Some?
    ensures FindFirst(s + more, p) == FindFirst(s, p)
  {
    if !p(s[0]) {
      assert (s + more)[1..] == s[1..] + more;
      FindFirstAppend(s[1..], more, p);
    }
  }
}

=== FILE: crowd.dfy ===
/** predict_crowd: the 24 hourly counts before the requested hour go through an opaque
    regression model, and its prediction is bucketed into a crowd level. */
module Crowd {
  import opened Common

  datatype Level = Low | Moderate | High

  /** One row of the historical count series; `at` is in minutes from today's midnight. */
  datatype Reading = Reading(at: int, count: int)

  /** The number of preceding hourly counts the model was trained on. */
  const WindowSize: nat := 24

  const PeakThreshold: real := 80.0
  const QuietThreshold: real := 10.0

  function Rank(l: Level): nat {
    match l
    case Low => 0
    case Moderate => 1
    case High => 2
  }

  /** The bucketing at the end of predict_crowd; the three bands cover every prediction
      and do not overlap. */
  function Bucket(prediction: real): (r: Level)
    ensures r == High <==> prediction >= PeakThreshold
    ensures r == Low <==> prediction < QuietThreshold
    ensures r == Moderate <==> QuietThreshold <= prediction < PeakThreshold
  {
    if prediction >= PeakThreshold then High
    else if prediction < QuietThreshold then Low
    else Moderate
  }

  /** A larger prediction never gives a quieter level. */
  lemma BucketMonotone(p: real, q: real)
    requires p <= q
    ensures Rank(Bucket(p)) <= Rank(Bucket(q))
  {
  }

  /** The boundary values: 80 is already High, 10 is already Moderate. */
  lemma BucketBoundaries()
    ensures Bucket(79.9) == Moderate && Bucket(80.0) == High
    ensures Bucket(9.9) == Low && Bucket(10.0) == Moderate
  {
  }

  /** `idx[0]` of `df.index[df['datetime'] == visit_datetime]`. */
  function MatchIndex(history: seq<Reading>, at: int): (r: Option<nat>)
    ensures r.None? <==> forall i :: 0 <= i < |history| ==> history[i].at != at
    ensures r.Some? ==> r.value < |history| && history[r.value].at == at
    ensures r.Some? ==> forall i :: 0 <= i < r.value ==> history[i].at != at
  {
    FindFirst(history, (x: Reading) => x.at == at)
  }

  /** The scaled counts of the 24 rows just before row `idx`, oldest first. */
  function Window(history: seq<Reading>, scale: int -> real, idx: nat): (w: seq<real>)
    requires WindowSize <= idx <= |history|
    ensures |w| == WindowSize
    ensures forall k :: 0 <= k < WindowSize ==> w[k] == scale(history[idx - WindowSize + k].count)
  {
    seq(WindowSize, k requires 0 <= k < WindowSize => scale(history[idx - WindowSize + k].count))
  }

  /** The feature vector: the scaled counts of the 24 rows strictly before the first row
      stamped with the visit time. A miss is the IndexError of `idx[0]`; fewer than 24
      earlier rows give a short slice that the model rejects. */
  function Features(history: seq<Reading>, scale: int -> real, at: int): (r: Result<seq<real>, Fault>)
    ensures r == Failure(TimeNotInHistory) <==> MatchIndex(history, at).None?
    ensures r == Failure(ShortHistory) <==> (MatchIndex(history, at).Some? && MatchIndex(history, at).value < WindowSize)
    ensures r.Success? ==>
      && MatchIndex(history, at).Some?
      && var idx := MatchIndex(history, at).value;
      && WindowSize <= idx
      && |r.value| == WindowSize
      && forall k :: 0 <= k < WindowSize ==> r.value[k] == scale(history[idx - WindowSize + k].count)
  {
    match MatchIndex(history, at)
    case None => Failure(TimeNotInHistory)
    case Some(idx) =>
      if idx < WindowSize then Failure(ShortHistory)
      else Success(Window(history, scale, idx))
  }

  /** predict_crowd(site, time) for the visit minute `at` of today. `scale` stands for the
      fitted scaler and `predict` for the regression model followed by the inverse scaling.
      The contract speaks of the history itself: no reading at `at` is one error, a reading
      at `at` among the first 24 rows is the other, and otherwise the level is the bucket of
      the prediction on the 24 rows before the first reading at `at`. */
  function PredictCrowd(history: seq<Reading>, scale: int -> real, predict: seq<real> -> real, at: int): (r: Result<Level, Fault>)
    ensures r == Failure(TimeNotInHistory) <==> forall i :: 0 <= i < |history| ==> history[i].at != at
    ensures r == Failure(ShortHistory) <==> exists i :: 0 <= i < |history| && i < WindowSize && history[i].at == at
    ensures r.Failure? ==> r.error == TimeNotInHistory || r.error == ShortHistory
    ensures r.Success? ==>
      exists idx :: WindowSize <= idx < |history| && history[idx].at == at
        && (forall j :: 0 <= j < idx ==> history[j].at != at)
        && r.value == Bucket(predict(Window(history, scale, idx)))
  {
    var window :- Features(history, scale, at);
    var idx := MatchIndex(history, at).value;
    assert window == Window(history, scale, idx);
    Success(Bucket(predict(window)))
  }

  /** Readings after the matched row never influence the prediction. */
  lemma {:induction false} PredictIgnoresLaterReadings(history: seq<Reading>, later: seq<Reading>, scale: int -> real, predict: seq<real> -> real, at: int)
    requires MatchIndex(history, at).Some?
    ensures PredictCrowd(history + later, scale, predict, at) == PredictCrowd(history, scale, predict, at)
  {
    var p := (x: Reading) => x.at == at;
    FindFirstAppend(history, later, p);
    assert MatchIndex(history + later, at) == MatchIndex(history, at);
    var idx := MatchIndex(history, at).value;
    if idx >= WindowSize {
      var w1 := Features(history + later, scale, at).value;
      var w2 := Features(history, scale, at).value;
      assert forall j :: 0 <= j < |history| ==> (history + later)[j] == history[j];
      assert w1 == w2;
    }
  }
}

=== FILE: detour.dfy ===
/** filter_sites_on_the_way: pick a lesser-known site near the driving route, or the one
    closest to the route's last waypoint when none is near. The route, the distance
    function and the geocoder's answers are inputs. */
module Detour {
  import opened Common
  import opened Geocode

  /** A site is on the way when it is under this many kilometres from a waypoint. */
  const NearLimit: real := 5.0

  /** haversine_distance, left uninterpreted. */
  type Distance = (Coord, Coord) -> real

  /** What the waypoint loop leaves behind for one site: whether it broke out on a near
      waypoint, and the last distance it wrote into the `distance` dict. */
  datatype Reach = Reach(near: bool, distance: real)

  /** The inner loop over the waypoints, in route order. */
  function Proximity(p: Coord, route: seq<Coord>, dist: Distance): (r: Reach)
    requires |route| > 0
    ensures r.near <==> exists i :: 0 <= i < |route| && dist(p, route[i]) < NearLimit
    ensures r.near ==> r.distance < NearLimit
    ensures r.near ==> exists i :: 0 <= i < |route| && r.distance == dist(p, route[i])
    ensures !r.near ==> r.distance == dist(p, route[|route| - 1])
    decreases |route|
  {
    var d := dist(p, route[0]);
    if d < NearLimit then Reach(true, d)
    else if |route| == 1 then Reach(false, d)
    else
      var r := Proximity(p, route[1..], dist);
      assert forall i :: 0 < i < |route| ==> route[1..][i - 1] == route[i];
      r
  }

  /** The state the candidate loop builds: the on-the-way list, the `distance` dict as its
      entries in insertion order, the cache, and the first site whose lookup failed (the
      loop raises there). */
  datatype Survey = Survey(onWay: seq<string>, recorded: seq<(string, real)>, cache: Cache, failed: Option<string>)

  /** The outer loop over the lesser-known sites. A failed lookup gives (None, None), which
      passes the `if not site_coords` guard and makes the first distance computation raise. */
  function Scan(candidates: seq<string>, route: seq<Coord>, dist: Distance, geo: string -> Reply, cache: Cache): (s: Survey)
    requires |route| > 0
    ensures |s.recorded| <= |candidates|
    ensures s.failed.None? ==> |s.recorded| == |candidates|
    ensures forall i :: 0 <= i < |s.recorded| ==> s.recorded[i].0 == candidates[i]
    ensures forall n :: n in s.onWay ==> n in candidates
    ensures s.failed.Some? ==> s.failed.value in candidates
    decreases |candidates|
  {
    if |candidates| == 0 then Survey([], [], cache, None)
    else
      var name := candidates[0];
      var look := Resolve(cache, name, geo(Key(name)));
      match look.coords
      case None => Survey([], [], look.cache, Some(name))
      case Some(p) =>
        var reach := Proximity(p, route, dist);
        var rest := Scan(candidates[1..], route, dist, geo, look.cache);
        assert forall i :: 0 <= i < |rest.recorded| ==> rest.recorded[i].0 == candidates[i + 1];
        assert forall n :: n in rest.onWay ==> n in candidates;
        assert rest.failed.Some? ==> rest.failed.value in candidates;
        Visited(name, reach, rest)
  }

  /** The survey after one more site, visited before the rest. */
  function Visited(name: string, reach: Reach, rest: Survey): (s: Survey)
    ensures |s.recorded| == |rest.recorded| + 1 && s.recorded[0] == (name, reach.distance)
    ensures forall i :: 0 < i < |s.recorded| ==> s.recorded[i] == rest.recorded[i - 1]
    ensures forall n :: n in s.onWay ==> n == name || n in rest.onWay
    ensures s.failed == rest.failed
  {
    Survey((if reach.near then [name] else []) + rest.onWay, [(name, reach.distance)] + rest.recorded, rest.cache, rest.failed)
  }

  /** `min(distance, key=distance.get)`: the first entry with the smallest distance. */
  function Nearest(entries: seq<(string, real)>): (r: nat)
    requires |entries| > 0
    ensures r < |entries|
    ensures forall j :: 0 <= j < |entries| ==> entries[r].1 <= entries[j].1
    ensures forall j :: 0 <= j < r ==> entries[r].1 < entries[j].1
  {
    if |entries| == 1 then 0
    else
      var k := Nearest(entries[..|entries| - 1]);
      if entries[|entries| - 1].1 < entries[k].1 then |entries| - 1 else k
  }

  /** The return statements after the loop; `pick` stands for random.choice. */
  function Choose(s: Survey, pick: nat): (r: Result<Option<string>, Fault>)
    ensures s.failed.Some? ==> r == Failure(CandidateNotFound(s.failed.value))
    ensures s.failed.None? ==> (r.Failure? <==> s.onWay == [] && s.recorded == [])
    ensures r.Failure? && s.failed.None? ==> r.error == NoCandidates
    ensures r.Success? ==> r.value.Some?
    ensures s.failed.None? && s.onWay != [] ==> r.Success? && r.value.value in s.onWay
    ensures s.failed.None? && s.onWay == [] && s.recorded != [] ==>
      exists i :: 0 <= i < |s.recorded| && r == Success(Some(s.recorded[i].0))
        && (forall j :: 0 <= j < |s.recorded| ==> s.recorded[i].1 <= s.recorded[j].1)
        && (forall j :: 0 <= j < i ==> s.recorded[i].1 < s.recorded[j].1)
  {
    if s.failed.Some? then Failure(CandidateNotFound(s.failed.value))
    else if |s.onWay| > 0 then Success(Some(s.onWay[pick % |s.onWay|]))
    else if |s.recorded| == 0 then Failure(NoCandidates)
    else Success(Some(s.recorded[Nearest(s.recorded)].0))
  }

  /** The suggested site (or the error raised) and the cache afterwards. */
  datatype Outcome = Outcome(choice: Result<Option<string>, Fault>, cache: Cache)

  /** filter_sites_on_the_way(origin, candidates, destination). The origin and destination
      are geocoded only for the guard, which never fires because a failed lookup returns the
      truthy pair (None, None); the route is asked for by name. */
  function Detour(origin: string, candidates: seq<string>, destination: string, route: seq<Coord>,
                  dist: Distance, geo: string -> Reply, pick: nat, cache: Cache): (r: Outcome)
    ensures |route| == 0 ==> r.choice == Success(None)
    ensures r.choice.Success? && r.choice.value.Some? ==> r.choice.value.value in candidates
    ensures r.choice.Failure? ==>
      || (r.choice.error.CandidateNotFound? && r.choice.error.site in candidates)
      || (r.choice.error == NoCandidates && candidates == [])
  {
    var c1 := Resolve(cache, origin, geo(Key(origin))).cache;
    var c2 := Resolve(c1, destination, geo(Key(destination))).cache;
    if |route| == 0 then Outcome(Success(None), c2)
    else
      var s := Scan(candidates, route, dist, geo, c2);
      Outcome(Choose(s, pick), s.cache)
  }

  // ---------------------------------------------------------------------------
  // What the selection means, stated against the cache the request started with.

  /** What the waypoint loop finds for `name`, if the name can be located. */
  function ReachOf(start: Cache, geo: string -> Reply, route: seq<Coord>, dist: Distance, name: string): Option<Reach>
    requires |route| > 0
  {
    match Known(start, geo, name)
    case None => None
    case Some(p) => Some(Proximity(p, route, dist))
  }

  predicate OnTheWay(start: Cache, geo: string -> Reply, route: seq<Coord>, dist: Distance, name: string)
    requires |route| > 0
  {
    ReachOf(start, geo, route, dist, name).Some? && ReachOf(start, geo, route, dist, name).value.near
  }

  /** The first candidate that cannot be located, if any. */
  function Unresolvable(start: Cache, geo: string -> Reply, candidates: seq<string>): (r: Option<nat>)
    ensures r.None? <==> forall i :: 0 <= i < |candidates| ==> Known(start, geo, candidates[i]).Some?
    ensures r.Some? ==> r.value < |candidates| && Known(start, geo, candidates[r.value]).None?
    ensures r.Some? ==> forall i :: 0 <= i < r.value ==> Known(start, geo, candidates[i]).Some?
  {
    FindFirst(candidates, (n: string) => Known(start, geo, n).None?)
  }

  /** The candidate loop only grows the cache through accepted answers. */
  lemma {:induction false} ScanExtends(start: Cache, candidates: seq<string>, route: seq<Coord>, dist: Distance, geo: string -> Reply, cache: Cache)
    requires |route| > 0
    requires Extends(start, geo, cache)
    ensures Extends(start, geo, Scan(candidates, route, dist, geo, cache).cache)
    decreases |candidates|
  {
    if |candidates| > 0 {
      var name := candidates[0];
      var look := Resolve(cache, name, geo(Key(name)));
      ResolveFollowsKnown(start, geo, cache, name);
      if look.coords.Some? {
        ScanExtends(start, candidates[1..], route, dist, geo, look.cache);
      }
    }
  }

  /** The candidate loop raises exactly when some site cannot be located, at the first one. */
  lemma {:induction false} ScanFailure(start: Cache, candidates: seq<string>, route: seq<Coord>, dist: Distance, geo: string -> Reply, cache: Cache)
    requires |route| > 0
    requires Extends(start, geo, cache)
    ensures var s := Scan(candidates, route, dist, geo, cache);
      && (s.failed.None? <==> Unresolvable(start, geo, candidates).None?)
      && (s.failed.Some? ==> s.failed == Some(candidates[Unresolvable(start, geo, candidates).value]))
    decreases |candidates|
  {
    if |candidates| > 0 {
      var name := candidates[0];
      var look := Resolve(cache, name, geo(Key(name)));
      ResolveFollowsKnown(start, geo, cache, name);
      if look.coords.Some? {
        var tail := candidates[1..];
        ScanFailure(start, tail, route, dist, geo, look.cache);
        assert forall i :: 0 < i < |candidates| ==> tail[i - 1] == candidates[i];
        var u := Unresolvable(start, geo, candidates);
        var ut := Unresolvable(start, geo, tail);
        if u.Some? {
          assert u.value > 0;
          assert ut.Some? && ut.value == u.value - 1;
        } else {
          assert ut.None?;
        }
      }
    }
  }

  /** Without a failure, the `distance` dict has one entry per site, in order. */
  lemma {:induction false} ScanRecorded(start: Cache, candidates: seq<string>, route: seq<Coord>, dist: Distance, geo: string -> Reply, cache: Cache)
    requires |route| > 0
    requires Extends(start, geo, cache)
    ensures var s := Scan(candidates, route, dist, geo, cache);
      s.failed.None? ==> Recorded(start, geo, route, dist, candidates, s.recorded)
    decreases |candidates|
  {
    if |candidates| > 0 {
      var name := candidates[0];
      var look := Resolve(cache, name, geo(Key(name)));
      ResolveFollowsKnown(start, geo, cache, name);
      if look.coords.Some? {
        var tail := candidates[1..];
        ScanRecorded(start, tail, route, dist, geo, look.cache);
        var s := Scan(candidates, route, dist, geo, cache);
        if s.failed.None? {
          var rest := Scan(tail, route, dist, geo, look.cache);
          assert s.recorded == [(name, Proximity(look.coords.value, route, dist).distance)] + rest.recorded;
          forall i | 0 <= i < |candidates|
            ensures ReachOf(start, geo, route, dist, candidates[i]).Some?
            ensures s.recorded[i] == (candidates[i], ReachOf(start, geo, route, dist, candidates[i]).value.distance)
          {
            if i > 0 {
              assert candidates[i] == tail[i - 1];
              assert s.recorded[i] == rest.recorded[i - 1];
            }
          }
        }
      }
    }
  }

  /** Without a failure, the on-the-way list holds exactly the sites near the route. */
  lemma {:induction false} ScanOnWay(start: Cache, candidates: seq<string>, route: seq<Coord>, dist: Distance, geo: string -> Reply, cache: Cache)
    requires |route| > 0
    requires Extends(start, geo, cache)
    ensures var s := Scan(candidates, route, dist, geo, cache);
      s.failed.None? ==> forall n :: n in s.onWay <==> (n in candidates && OnTheWay(start, geo, route, dist, n))
    decreases |candidates|
  {
    if |candidates| > 0 {
      var name := candidates[0];
      var look := Resolve(cache, name, geo(Key(name)));
      ResolveFollowsKnown(start, geo, cache, name);
      if look.coords.Some? {
        var tail := candidates[1..];
        ScanOnWay(start, tail, route, dist, geo, look.cache);
        var s := Scan(candidates, route, dist, geo, cache);
        var reach := Proximity(look.coords.value, route, dist);
        var rest := Scan(tail, route, dist, geo, look.cache);
        assert s.onWay == (if reach.near then [name] else []) + rest.onWay;
        assert ReachOf(start, geo, route, dist, name) == Some(reach);
        if s.failed.None? {
          forall n
            ensures n in s.onWay <==> (n in candidates && OnTheWay(start, geo, route, dist, n))
          {
            if n in candidates && n != name {
              assert n in tail;
            }
            if n in tail {
              assert n in candidates;
            }
          }
        }
      }
    }
  }

  /** Without a failure and with no site near the route, the on-the-way list is empty. */
  lemma {:induction false} ScanNoneOnWay(start: Cache, candidates: seq<string>, route: seq<Coord>, dist: Distance, geo: string -> Reply, cache: Cache)
    requires |route| > 0
    requires Extends(start, geo, cache)
    requires forall n :: n in candidates ==> !OnTheWay(start, geo, route, dist, n)
    ensures Scan(candidates, route, dist, geo, cache).onWay == []
    decreases |candidates|
  {
    if |candidates| > 0 {
      var name := candidates[0];
      var look := Resolve(cache, name, geo(Key(name)));
      ResolveFollowsKnown(start, geo, cache, name);
      if look.coords.Some? {
        var tail := candidates[1..];
        assert forall n :: n in tail ==> n in candidates;
        ScanNoneOnWay(start, tail, route, dist, geo, look.cache);
        assert ReachOf(start, geo, route, dist, name) == Some(Proximity(look.coords.value, route, dist));
        assert name in candidates;
      }
    }
  }

  /** `recorded` holds, for each candidate in order, its name and the distance the waypoint
      loop left for it. */
  ghost predicate Recorded(start: Cache, geo: string -> Reply, route: seq<Coord>, dist: Distance, candidates: seq<string>, recorded: seq<(string, real)>)
    requires |route| > 0
  {
    && |recorded| == |candidates|
    && forall i :: 0 <= i < |candidates| ==>
         ReachOf(start, geo, route, dist, candidates[i]).Some?
         && recorded[i] == (candidates[i], ReachOf(start, geo, route, dist, candidates[i]).value.distance)
  }

  /** After the origin and destination lookups the cache still answers as the starting one. */
  lemma DetourCache(origin: string, destination: string, geo: string -> Reply, cache: Cache)
    ensures var c1 := Resolve(cache, origin, geo(Key(origin))).cache;
      var c2 := Resolve(c1, destination, geo(Key(destination))).cache;
      Extends(cache, geo, c2)
  {
    ExtendsRefl(cache, geo);
    var c1 := Resolve(cache, origin, geo(Key(origin))).cache;
    ResolveFollowsKnown(cache, geo, cache, origin);
    ResolveFollowsKnown(cache, geo, c1, destination);
  }

  /** The Scan facts for the cache after the origin and destination lookups, restated for
      the cache the request started with. */
  lemma DetourSurvey(origin: string, candidates: seq<string>, destination: string, route: seq<Coord>,
                     dist: Distance, geo: string -> Reply, cache: Cache)
    requires |route| > 0
    ensures var c1 := Resolve(cache, origin, geo(Key(origin))).cache;
      var c2 := Resolve(c1, destination, geo(Key(destination))).cache;
      var s := Scan(candidates, route, dist, geo, c2);
      && (s.failed.None? <==> Unresolvable(cache, geo, candidates).None?)
      && (s.failed.Some? ==> s.failed == Some(candidates[Unresolvable(cache, geo, candidates).value]))
      && (s.failed.None? ==> Recorded(cache, geo, route, dist, candidates, s.recorded))
      && (s.failed.None? ==> forall n :: n in s.onWay <==> (n in candidates && OnTheWay(cache, geo, route, dist, n)))
  {
    DetourCache(origin, destination, geo, cache);
    var c1 := Resolve(cache, origin, geo(Key(origin))).cache;
    var c2 := Resolve(c1, destination, geo(Key(destination))).cache;
    ScanFailure(cache, candidates, route, dist, geo, c2);
    ScanRecorded(cache, candidates, route, dist, geo, c2);
    ScanOnWay(cache, candidates, route, dist, geo, c2);
  }

  /** With a route, the answer is what the return statements make of the candidate loop. */
  lemma DetourChooses(origin: string, candidates: seq<string>, destination: string, route: seq<Coord>,
                      dist: Distance, geo: string -> Reply, pick: nat, cache: Cache)
    requires |route| > 0
    ensures var c1 := Resolve(cache, origin, geo(Key(origin))).cache;
      var c2 := Resolve(c1, destination, geo(Key(destination))).cache;
      Detour(origin, candidates, destination, route, dist, geo, pick, cache).choice
        == Choose(Scan(candidates, route, dist, geo, c2), pick)
  {
  }

  /** A site that cannot be located makes the selection raise, at the first such site. */
  lemma DetourUnresolvable(origin: string, candidates: seq<string>, destination: string, route: seq<Coord>,
                           dist: Distance, geo: string -> Reply, pick: nat, cache: Cache)
    requires |route| > 0
    requires Unresolvable(cache, geo, candidates).Some?
    ensures Detour(origin, candidates, destination, route, dist, geo, pick, cache).choice
         == Failure(CandidateNotFound(candidates[Unresolvable(cache, geo, candidates).value]))
  {
    DetourSurvey(origin, candidates, destination, route, dist, geo, cache);
  }

  /** A route with no candidate sites has nothing to take the minimum over. */
  lemma DetourWithoutCandidates(origin: string, destination: string, route: seq<Coord>,
                                dist: Distance, geo: string -> Reply, pick: nat, cache: Cache)
    requires |route| > 0
    ensures Detour(origin, [], destination, route, dist, geo, pick, cache).choice == Failure(NoCandidates)
  {
  }

  /** When some site is near the route, the suggestion is one of the sites near the route. */
  lemma DetourPrefersOnTheWay(origin: string, candidates: seq<string>, destination: string, route: seq<Coord>,
                              dist: Distance, geo: string -> Reply, pick: nat, cache: Cache)
    requires |route| > 0
    requires Unresolvable(cache, geo, candidates).None?
    requires exists n :: n in candidates && OnTheWay(cache, geo, route, dist, n)
    ensures var choice := Detour(origin, candidates, destination, route, dist, geo, pick, cache).choice;
      choice.Success? && choice.value.Some?
      && choice.value.value in candidates && OnTheWay(cache, geo, route, dist, choice.value.value)
  {
    DetourSurvey(origin, candidates, destination, route, dist, geo, cache);
    var c1 := Resolve(cache, origin, geo(Key(origin))).cache;
    var c2 := Resolve(c1, destination, geo(Key(destination))).cache;
    var s := Scan(candidates, route, dist, geo, c2);
    var n :| n in candidates && OnTheWay(cache, geo, route, dist, n);
    assert n in s.onWay;
    assert s.onWay[pick % |s.onWay|] in s.onWay;
  }

  /** Every site near the route is a possible suggestion. */
  lemma DetourCanPickAnyOnTheWay(origin: string, candidates: seq<string>, destination: string, route: seq<Coord>,
                                 dist: Distance, geo: string -> Reply, cache: Cache, n: string)
    requires |route| > 0
    requires Unresolvable(cache, geo, candidates).None?
    requires n in candidates && OnTheWay(cache, geo, route, dist, n)
    ensures exists pick: nat :: Detour(origin, candidates, destination, route, dist, geo, pick, cache).choice == Success(Some(n))
  {
    var c1 := Resolve(cache, origin, geo(Key(origin))).cache;
    var c2 := Resolve(c1, destination, geo(Key(destination))).cache;
    DetourCache(origin, destination, geo, cache);
    ScanFailure(cache, candidates, route, dist, geo, c2);
    ScanOnWay(cache, candidates, route, dist, geo, c2);
    var s := Scan(candidates, route, dist, geo, c2);
    var k := ChooseCanPick(s, n);
    DetourChooses(origin, candidates, destination, route, dist, geo, k, cache);
  }

  /** Some draw of random.choice gives any given on-the-way site. */
  lemma ChooseCanPick(s: Survey, n: string) returns (k: nat)
    requires s.failed.None? && n in s.onWay
    ensures Choose(s, k) == Success(Some(n))
  {
    k :| 0 <= k < |s.onWay| && s.onWay[k] == n;
    assert k % |s.onWay| == k;
  }

  /** The distance recorded for a site no waypoint is near: its distance to the last one. */
  function LastLeg(start: Cache, geo: string -> Reply, route: seq<Coord>, dist: Distance, name: string): real
    requires |route| > 0
    requires Known(start, geo, name).Some?
  {
    dist(Known(start, geo, name).value, route[|route| - 1])
  }

  /** When no site is near the route, the suggestion is the site closest to the last
      waypoint, the earliest one on a tie. */
  lemma DetourFallsBackToNearest(origin: string, candidates: seq<string>, destination: string, route: seq<Coord>,
                                 dist: Distance, geo: string -> Reply, pick: nat, cache: Cache)
    requires |route| > 0 && |candidates| > 0
    requires Unresolvable(cache, geo, candidates).None?
    requires forall n :: n in candidates ==> !OnTheWay(cache, geo, route, dist, n)
    ensures exists i ::
      && 0 <= i < |candidates|
      && Detour(origin, candidates, destination, route, dist, geo, pick, cache).choice == Success(Some(candidates[i]))
      && (forall j :: 0 <= j < |candidates| ==> LastLeg(cache, geo, route, dist, candidates[i]) <= LastLeg(cache, geo, route, dist, candidates[j]))
      && (forall j :: 0 <= j < i ==> LastLeg(cache, geo, route, dist, candidates[i]) < LastLeg(cache, geo, route, dist, candidates[j]))
  {
    var c1 := Resolve(cache, origin, geo(Key(origin))).cache;
    var c2 := Resolve(c1, destination, geo(Key(destination))).cache;
    DetourCache(origin, destination, geo, cache);
    ScanFailure(cache, candidates, route, dist, geo, c2);
    ScanRecorded(cache, candidates, route, dist, geo, c2);
    ScanNoneOnWay(cache, candidates, route, dist, geo, c2);
    ChooseNearest(cache, geo, route, dist, candidates, Scan(candidates, route, dist, geo, c2), pick);
    DetourChooses(origin, candidates, destination, route, dist, geo, pick, cache);
  }

  /** With every site located and none near the route, the return statements take the
      site whose recorded distance, its distance to the last waypoint, is smallest. */
  lemma ChooseNearest(start: Cache, geo: string -> Reply, route: seq<Coord>, dist: Distance,
                      candidates: seq<string>, s: Survey, pick: nat)
    requires |route| > 0 && |candidates| > 0
    requires s.failed.None? && s.onWay == []
    requires Recorded(start, geo, route, dist, candidates, s.recorded)
    requires forall n :: n in candidates ==> !OnTheWay(start, geo, route, dist, n)
    ensures exists i ::
      && 0 <= i < |candidates|
      && Choose(s, pick) == Success(Some(candidates[i]))
      && (forall j :: 0 <= j < |candidates| ==> LastLeg(start, geo, route, dist, candidates[i]) <= LastLeg(start, geo, route, dist, candidates[j]))
      && (forall j :: 0 <= j < i ==> LastLeg(start, geo, route, dist, candidates[i]) < LastLeg(start, geo, route, dist, candidates[j]))
  {
    forall j | 0 <= j < |candidates|
      ensures Known(start, geo, candidates[j]).Some?
      ensures s.recorded[j].1 == LastLeg(start, geo, route, dist, candidates[j])
    {
      assert candidates[j] in candidates;
    }
    var i := Nearest(s.recorded);
    assert Choose(s, pick) == Success(Some(candidates[i]));
  }

  /** One waypoint, a site 3 km from it and one 50 km from it: the 3 km site is suggested
      whatever random.choice draws. */
  lemma DetourNearSiteWins(origin: string, destination: string, a: string, b: string, pa: Coord, pb: Coord, w: Coord,
                           dist: Distance, geo: string -> Reply, pick: nat, cache: Cache)
    requires Known(cache, geo, a) == Some(pa) && Known(cache, geo, b) == Some(pb)
    requires dist(pa, w) == 3.0 && dist(pb, w) == 50.0
    ensures Detour(origin, [a, b], destination, [w], dist, geo, pick, cache).choice == Success(Some(a))
  {
    var cands := [a, b];
    assert ReachOf(cache, geo, [w], dist, a) == Some(Reach(true, 3.0));
    assert ReachOf(cache, geo, [w], dist, b) == Some(Reach(false, 50.0));
    assert Unresolvable(cache, geo, cands).None?;
    assert a in cands && OnTheWay(cache, geo, [w], dist, a);
    DetourPrefersOnTheWay(origin, cands, destination, [w], dist, geo, pick, cache);
  }
}

=== FILE: geocode.dfy ===
/** get_coordinates: a geocoding cache keyed by the lower-cased, stripped place name. The
    provider's reply is an input; the JSON file the cache is saved to is not modelled. */
module Geocode {
  import opened Common
  import opened Text

  datatype Coord = Coord(lat: real, lon: real)

  /** What the geocoding provider answers: its status and the first result's location. */
  datatype Reply = Reply(status: string, location: Coord)

  type Cache = map<string, Coord>

  /** The coordinates get_coordinates returns (None for the `(None, None)` pair) and the
      cache after the call. */
  datatype Lookup = Lookup(coords: Option<Coord>, cache: Cache)

  function Key(name: string): string {
    Normalize(name)
  }

  /** What the cache key of a name is: the lower-cased name without its surrounding
      whitespace, holding no upper-case ASCII letter. */
  lemma KeyMeaning(name: string)
    ensures Stripped(Key(name))
    ensures SpacePadded(Lower(name), Key(name))
    ensures forall k :: 0 <= k < |Key(name)| ==> !('A' <= Key(name)[k] <= 'Z')
  {
    var lower := Lower(name);
    var key := Strip(lower);
    assert Key(name) == key;
    StripSpec(lower);
    LowerSpec(name);
    var i :| PaddedAt(lower, key, i);
    NoCapitalInside(lower, key, i);
  }

  /** Text found inside a string without capitals has none either. */
  lemma NoCapitalInside(s: string, r: string, i: int)
    requires PaddedAt(s, r, i)
    requires forall k :: 0 <= k < |s| ==> !('A' <= s[k] <= 'Z')
    ensures forall k :: 0 <= k < |r| ==> !('A' <= r[k] <= 'Z')
  {
    forall k | 0 <= k < |r|
      ensures !('A' <= r[k] <= 'Z')
    {
      assert r[k] == s[i..i + |r|][k] == s[i + k];
    }
  }

  predicate Accepted(reply: Reply) {
    reply.status == "OK"
  }

  /** get_coordinates(name) when the provider would answer `reply` for it. */
  function Resolve(cache: Cache, name: string, reply: Reply): (r: Lookup)
    ensures Key(name) in cache ==> r == Lookup(Some(cache[Key(name)]), cache)
    ensures Key(name) !in cache && Accepted(reply) ==>
      && r.coords == Some(reply.location)
      && r.cache.Keys == cache.Keys + {Key(name)}
      && r.cache[Key(name)] == reply.location
      && forall k :: k in cache ==> r.cache[k] == cache[k]
    ensures Key(name) !in cache && !Accepted(reply) ==> r == Lookup(None, cache)
  {
    var key := Key(name);
    if key in cache then Lookup(Some(cache[key]), cache)
    else if Accepted(reply) then Lookup(Some(reply.location), cache[key := reply.location])
    else Lookup(None, cache)
  }

  /** Every key of the cache is a normalized name. */
  predicate NormalKeys(cache: Cache) {
    forall k :: k in cache ==> Key(k) == k
  }

  /** The cache only ever gains normalized keys. */
  lemma ResolveKeepsKeysNormal(cache: Cache, name: string, reply: Reply)
    requires NormalKeys(cache)
    ensures NormalKeys(Resolve(cache, name, reply).cache)
  {
    NormalizeIdempotent(name);
  }

  /** After a successful lookup, any spelling with the same key is answered from the cache,
      whatever the provider would say. */
  lemma RepeatLookupHitsCache(cache: Cache, a: string, b: string, first: Reply, second: Reply)
    requires Resolve(cache, a, first).coords.Some?
    requires Key(b) == Key(a)
    ensures var r1 := Resolve(cache, a, first);
      Resolve(r1.cache, b, second) == Lookup(r1.coords, r1.cache)
  {
  }

  /** The coordinates a request sees for `name`, given the cache it started with and the
      provider's answer for each key. */
  function Known(start: Cache, geo: string -> Reply, name: string): (r: Option<Coord>)
    ensures r.Some? <==> (Key(name) in start || Accepted(geo(Key(name))))
  {
    var key := Key(name);
    if key in start then Some(start[key])
    else if Accepted(geo(key)) then Some(geo(key).location)
    else None
  }

  /** `cache` grew from `start` only through accepted provider answers. */
  ghost predicate Extends(start: Cache, geo: string -> Reply, cache: Cache) {
    && start.Keys <= cache.Keys
    && (forall k :: k in start ==> cache[k] == start[k])
    && (forall k :: k in cache && k !in start ==> Accepted(geo(k)) && cache[k] == geo(k).location)
  }

  lemma ExtendsRefl(start: Cache, geo: string -> Reply)
    ensures Extends(start, geo, start)
  {
  }

  /** Within one request the cache answers exactly what the starting cache and the provider
      together determine. */
  lemma ResolveFollowsKnown(start: Cache, geo: string -> Reply, cache: Cache, name: string)
    requires Extends(start, geo, cache)
    ensures var r := Resolve(cache, name, geo(Key(name)));
      r.coords == Known(start, geo, name) && Extends(start, geo, r.cache)
  {
  }

  /** Growing the cache within a request does not change what a name resolves to. */
  lemma KnownStable(start: Cache, geo: string -> Reply, cache: Cache, name: string)
    requires Extends(start, geo, cache)
    ensures Known(cache, geo, name) == Known(start, geo, name)
  {
  }
}

=== FILE: intent.dfy ===
/** How the assistant reads the text-generation model's replies, and the required-field test
    of the site write routes. The model call itself is not modelled: its reply is an input. */
module Intent {
  import opened Common
  import opened Text

  /** The literal the model is told to answer with when a field is not specified. */
  const AbsentMarker: string := "None"

  /** extract_info_using_llm after the model replied `reply`: any reply mentioning the
      marker means "not given"; otherwise the reply without surrounding whitespace. */
  function ExtractField(reply: string): (r: Option<string>)
    ensures r.None? <==> Contains(reply, AbsentMarker)
    ensures r.Some? ==> Stripped(r.value) && SpacePadded(reply, r.value)
    ensures r.Some? ==> !Contains(r.value, AbsentMarker)
  {
    if Contains(reply, AbsentMarker) then None
    else
      var v := Strip(reply);
      StripSpec(reply);
      ExtractedHasNoMarker(reply, v);
      Some(v)
  }

  /** A whitespace-padded piece of a reply without the marker cannot hold the marker. */
  lemma ExtractedHasNoMarker(reply: string, v: string)
    requires !Contains(reply, AbsentMarker)
    requires SpacePadded(reply, v)
    ensures !Contains(v, AbsentMarker)
  {
    var i :| PaddedAt(reply, v, i);
    if Contains(v, AbsentMarker) {
      assert reply[i..i + |v|] == v;
      ContainsInSlice(reply, i, i + |v|, AbsentMarker);
    }
  }

  /** The spellings of "yes" that lower-case to "yes". */
  predicate YesWord(t: string) {
    && |t| == 3
    && (t[0] == 'y' || t[0] == 'Y')
    && (t[1] == 'e' || t[1] == 'E')
    && (t[2] == 's' || t[2] == 'S')
  }

  /** is_off_topic after the model replied `reply`. */
  function IsOffTopic(reply: string): (r: bool)
    ensures r <==> YesWord(Strip(reply))
  {
    var answer := Lower(Strip(reply));
    LowerSpec(Strip(reply));
    assert answer == "yes" ==> answer[0] == 'y' && answer[1] == 'e' && answer[2] == 's';
    answer == "yes"
  }

  /** Python truthiness of a JSON field: present and not the empty string. */
  predicate Given(field: Option<string>) {
    field.Some? && field.value != ""
  }

  /** `not all([site_name, category, description])` on the site write routes. */
  predicate MissingRequired(name: Option<string>, category: Option<string>, description: Option<string>) {
    !(Given(name) && Given(category) && Given(description))
  }

  /** A reply that mentions the marker anywhere, even inside other words, counts as absent. */
  lemma MarkerAnywhereMeansAbsent(prefix: string, suffix: string)
    ensures ExtractField(prefix + AbsentMarker + suffix) == None
  {
    var s := prefix + AbsentMarker + suffix;
    assert s[|prefix|..|prefix| + |AbsentMarker|] == AbsentMarker;
    assert OccursAt(s, AbsentMarker, |prefix|);
  }
}

=== FILE: sites.dfy ===
/** The less_known_sites table: rows keyed by an AUTOINCREMENT id, with a UNIQUE site name.
    The SQLite connection is not modelled; each helper is a function from table to table. */
module Sites {
  import opened Common
  import Intent

  datatype Site = Site(name: string, category: string, description: string)

  /** The rows by id, and the id the next insert receives (AUTOINCREMENT never reuses one). */
  datatype Table = Table(rows: map<nat, Site>, nextId: nat) {
    predicate Valid() {
      && 0 < nextId
      && (forall id :: id in rows ==> 0 < id < nextId)
      && (forall a, b :: a in rows && b in rows && rows[a].name == rows[b].name ==> a == b)
    }
  }

  /** A table the schema admits: ids below the sequence counter and no name twice. */
  type SiteTable = t: Table | t.Valid() witness Table(map[], 1)

  /** The empty table of a fresh database. */
  const Empty: SiteTable := Table(map[], 1)

  predicate HasName(t: Table, name: string) {
    exists id :: id in t.rows && t.rows[id].name == name
  }

  const AddedMessage: string := "Site added successfully!"
  const DuplicateMessage: string := "Site already exists!"

  /** add_site's (success, message) pair and the table afterwards. */
  datatype AddOutcome = AddOutcome(added: bool, message: string, table: SiteTable)

  /** add_site: the INSERT either takes the next id or fails on the UNIQUE name. */
  function AddSite(t: SiteTable, s: Site): (r: AddOutcome)
    ensures r.added <==> !HasName(t, s.name)
    ensures r.added ==> r.message == AddedMessage && r.table.rows == t.rows[t.nextId := s] && t.nextId !in t.rows
    ensures r.added ==> r.table.nextId == t.nextId + 1
    ensures !r.added ==> r.message == DuplicateMessage && r.table == t
    ensures HasName(r.table, s.name)
  {
    if HasName(t, s.name) then AddOutcome(false, DuplicateMessage, t)
    else
      var u := Table(t.rows[t.nextId := s], t.nextId + 1);
      assert u.Valid();
      assert u.rows[t.nextId] == s;
      AddOutcome(true, AddedMessage, u)
  }

  /** update_site's "a row matched" answer and the table afterwards. */
  datatype UpdateOutcome = UpdateOutcome(matched: bool, table: SiteTable)

  /** update_site: an UPDATE by id. A missing id matches nothing; a new name held by another
      row violates UNIQUE, and update_site lets that IntegrityError escape. */
  function UpdateSite(t: SiteTable, id: nat, s: Site): (r: Result<UpdateOutcome, Fault>)
    ensures id !in t.rows ==> r == Success(UpdateOutcome(false, t))
    ensures r == Failure(NameTaken) <==> (id in t.rows && exists other :: other in t.rows && other != id && t.rows[other].name == s.name)
    ensures r.Failure? ==> r.error == NameTaken
    ensures r.Success? && r.value.matched ==> r.value.table.rows == t.rows[id := s] && r.value.table.nextId == t.nextId
    ensures r.Success? ==> (r.value.matched <==> id in t.rows)
  {
    if id !in t.rows then Success(UpdateOutcome(false, t))
    else if exists other :: other in t.rows && other != id && t.rows[other].name == s.name then Failure(NameTaken)
    else
      var u := Table(t.rows[id := s], t.nextId);
      assert u.Valid();
      Success(UpdateOutcome(true, u))
  }

  /** delete_site's "a row matched" answer and the table afterwards. */
  datatype DeleteOutcome = DeleteOutcome(deleted: bool, table: SiteTable)

  /** delete_site: DELETE ... WHERE site_name = name. */
  function DeleteSite(t: SiteTable, name: string): (r: DeleteOutcome)
    ensures r.deleted <==> HasName(t, name)
    ensures !HasName(r.table, name)
    ensures r.table.nextId == t.nextId
    ensures forall id :: id in t.rows && t.rows[id].name != name ==> id in r.table.rows && r.table.rows[id] == t.rows[id]
    ensures forall id :: id in r.table.rows ==> id in t.rows && t.rows[id].name != name
  {
    var rows := map id | id in t.rows && t.rows[id].name != name :: t.rows[id];
    var u := Table(rows, t.nextId);
    assert u.Valid();
    DeleteOutcome(HasName(t, name), u)
  }

  /** clear_sites_table: every row goes; the id counter does not restart. */
  function ClearSites(t: SiteTable): (r: SiteTable)
    ensures forall name :: !HasName(r, name)
    ensures r.nextId == t.nextId
  {
    Table(map[], t.nextId)
  }

  /** The row named `name`; names are unique, so there is at most one. */
  function RowNamed(t: SiteTable, name: string): (r: Option<Site>)
    ensures r.None? <==> !HasName(t, name)
    ensures r.Some? ==> r.value.name == name && exists id :: id in t.rows && t.rows[id] == r.value
  {
    if HasName(t, name) then
      var id :| id in t.rows && t.rows[id].name == name;
      Some(t.rows[id])
    else None
  }

  const DefaultDescription: string := "a place of interest"
  const DefaultCategory: string := "General"

  /** query_site_info: the (description, category) of the named site, or the fallback. */
  function QuerySiteInfo(t: SiteTable, name: string): (r: (string, string))
    ensures !HasName(t, name) ==> r == (DefaultDescription, DefaultCategory)
    ensures forall id :: id in t.rows && t.rows[id].name == name ==> r == (t.rows[id].description, t.rows[id].category)
  {
    match RowNamed(t, name)
    case None => (DefaultDescription, DefaultCategory)
    case Some(s) => (s.description, s.category)
  }

  /** A site just added is what query_site_info reports for its name. */
  lemma AddThenQuery(t: SiteTable, s: Site)
    requires AddSite(t, s).added
    ensures QuerySiteInfo(AddSite(t, s).table, s.name) == (s.description, s.category)
  {
    var u := AddSite(t, s).table;
    assert u.rows[t.nextId] == s;
  }

  /** Adding a site and deleting it by name gives back the rows the table had. */
  lemma AddThenDelete(t: SiteTable, s: Site)
    requires AddSite(t, s).added
    ensures var d := DeleteSite(AddSite(t, s).table, s.name);
      d.deleted && d.table.rows == t.rows
  {
    var u := AddSite(t, s).table;
    var d := DeleteSite(u, s.name);
    assert u.rows[t.nextId] == s;
    assert d.table.rows.Keys == t.rows.Keys;
  }

  /** Adding a name twice leaves the table as the first add made it. */
  lemma AddTwice(t: SiteTable, s: Site, again: Site)
    requires again.name == s.name
    ensures var first := AddSite(t, s);
      AddSite(first.table, again) == AddOutcome(false, DuplicateMessage, first.table)
  {
  }

  // ---------------------------------------------------------------------------
  // The DELETE route hands the integer id to delete_site, which compares it with
  // site_name. The column has TEXT affinity, so SQLite compares the id's decimal text.

  function Digit(d: nat): char
    requires d < 10
  {
    "0123456789"[d]
  }

  /** The decimal text SQLite converts an integer to. */
  function Decimal(n: nat): (r: string)
    ensures |r| > 0
    ensures forall k :: 0 <= k < |r| ==> '0' <= r[k] <= '9'
    ensures n < 10 <==> |r| == 1
    ensures r[0] == '0' <==> n == 0
    decreases n
  {
    if n < 10 then [Digit(n)] else Decimal(n / 10) + [Digit(n % 10)]
  }

  /** Reading decimal text back. */
  function ParseDecimal(s: string): nat
    requires forall k :: 0 <= k < |s| ==> '0' <= s[k] <= '9'
    decreases |s|
  {
    if |s| == 0 then 0
    else ParseDecimal(s[..|s| - 1]) * 10 + ((s[|s| - 1] as int) - ('0' as int))
  }

  /** The conversion loses nothing: distinct ids give distinct texts. */
  lemma {:induction false} DecimalRoundTrip(n: nat)
    ensures ParseDecimal(Decimal(n)) == n
    decreases n
  {
    if n >= 10 {
      DecimalRoundTrip(n / 10);
      var s := Decimal(n);
      assert s[..|s| - 1] == Decimal(n / 10);
    }
  }

  /** DELETE /api/sites/<id> as written: delete_site(site_id), a match on the name. */
  function DeleteRoute(t: SiteTable, id: nat): (r: DeleteOutcome)
    ensures r.deleted <==> HasName(t, Decimal(id))
    ensures !HasName(r.table, Decimal(id))
  {
    DeleteSite(t, Decimal(id))
  }

  /** The route misses the row it names: with one row "Petra" under id 1, DELETE of id 1
      reports "Site not found" and keeps the row. */
  lemma DeleteRouteMissesId()
    ensures var t := AddSite(Empty, Site("Petra", "Historical", "Rock-cut city")).table;
      1 in t.rows && !DeleteRoute(t, 1).deleted && DeleteRoute(t, 1).table.rows == t.rows
  {
    var t := AddSite(Empty, Site("Petra", "Historical", "Rock-cut city")).table;
    assert Decimal(1) == "1";
    assert t.rows[1].name == "Petra";
    assert t.rows.Keys == {1};
    assert !HasName(t, "1");
  }

  /** The route as evidently intended: remove the row with that id. */
  function DeleteById(t: SiteTable, id: nat): (r: DeleteOutcome)
    ensures r.deleted <==> id in t.rows
    ensures r.table.rows == t.rows - {id}
    ensures r.table.nextId == t.nextId
  {
    var u := Table(t.rows - {id}, t.nextId);
    assert u.Valid();
    DeleteOutcome(id in t.rows, u)
  }

  /** A row added and then deleted by the id it received is gone, and only it. */
  lemma AddThenDeleteById(t: SiteTable, s: Site)
    requires AddSite(t, s).added
    ensures var d := DeleteById(AddSite(t, s).table, t.nextId);
      d.deleted && d.table.rows == t.rows && !HasName(d.table, s.name)
  {
    var u := AddSite(t, s).table;
    assert u.rows[t.nextId] == s;
    assert (t.rows[t.nextId := s]) - {t.nextId} == t.rows;
  }

  // ---------------------------------------------------------------------------
  // The two write routes: the required-field test, then the table helper, then the
  // HTTP status and message the route answers with.

  /** A route's answer: the HTTP status, the JSON message, and the table afterwards. */
  datatype RouteReply = RouteReply(status: nat, message: string, table: SiteTable)

  const FieldsRequired: string := "All fields (site_name, category, description) are required"
  const UpdatedMessage: string := "Site updated successfully"
  const NotFoundMessage: string := "Site not found"
  /** The text of the IntegrityError update_site lets escape, which the route reports. */
  const UniqueFailedMessage: string := "UNIQUE constraint failed: less_known_sites.site_name"

  /** Every stored row has a non-empty name, category and description. */
  predicate Filled(t: Table) {
    forall id :: id in t.rows ==> t.rows[id].name != "" && t.rows[id].category != "" && t.rows[id].description != ""
  }

  /** POST /api/sites with the three JSON fields. */
  function AddRoute(t: SiteTable, name: Option<string>, category: Option<string>, description: Option<string>): (r: RouteReply)
    ensures r.status == 200 || r.status == 400
    ensures r.status == 200 <==>
      (&& name.Some? && name.value != "" && category.Some? && category.value != ""
       && description.Some? && description.value != "" && !HasName(t, name.value))
    ensures r.status == 200 ==>
      && r.message == AddedMessage
      && r.table.rows == t.rows[t.nextId := Site(name.value, category.value, description.value)]
      && r.table.nextId == t.nextId + 1
    ensures r.status == 400 ==> r.table == t
    ensures (name.None? || name.value == "" || category.None? || category.value == ""
             || description.None? || description.value == "") ==> r.message == FieldsRequired
    ensures !Intent.MissingRequired(name, category, description) && HasName(t, name.value) ==> r.message == DuplicateMessage
  {
    if Intent.MissingRequired(name, category, description) then RouteReply(400, FieldsRequired, t)
    else
      var out := AddSite(t, Site(name.value, category.value, description.value));
      RouteReply(if out.added then 200 else 400, out.message, out.table)
  }

  /** PUT /api/sites/<id> with the three JSON fields. */
  function UpdateRoute(t: SiteTable, id: nat, name: Option<string>, category: Option<string>, description: Option<string>): (r: RouteReply)
    ensures r.status in {200, 400, 404, 500}
    ensures r.status != 200 ==> r.table == t
    ensures r.status == 400 <==>
      (name.None? || name.value == "" || category.None? || category.value == ""
       || description.None? || description.value == "")
    ensures r.status == 400 ==> r.message == FieldsRequired
    ensures r.status == 404 <==> (!Intent.MissingRequired(name, category, description) && id !in t.rows)
    ensures r.status == 500 <==>
      (&& !Intent.MissingRequired(name, category, description)
       && id in t.rows
       && exists other :: other in t.rows && other != id && t.rows[other].name == name.value)
    ensures r.status == 404 ==> r.message == NotFoundMessage && id !in t.rows
    ensures r.status == 500 ==>
      && r.message == UniqueFailedMessage
      && id in t.rows
      && exists other :: other in t.rows && other != id && t.rows[other].name == name.value
    ensures r.status == 200 ==>
      && r.message == UpdatedMessage
      && r.table.rows == t.rows[id := Site(name.value, category.value, description.value)]
      && r.table.nextId == t.nextId
  {
    if Intent.MissingRequired(name, category, description) then RouteReply(400, FieldsRequired, t)
    else match UpdateSite(t, id, Site(name.value, category.value, description.value))
      case Failure(_) => RouteReply(500, UniqueFailedMessage, t)
      case Success(out) =>
        if out.matched then RouteReply(200, UpdatedMessage, out.table)
        else RouteReply(404, NotFoundMessage, t)
  }

  /** A table written only through the two routes never holds an empty field. */
  lemma RoutesKeepTableFilled(t: SiteTable, id: nat, name: Option<string>, category: Option<string>, description: Option<string>)
    requires Filled(t)
    ensures Filled(AddRoute(t, name, category, description).table)
    ensures Filled(UpdateRoute(t, id, name, category, description).table)
  {
    var a := AddRoute(t, name, category, description);
    if a.status == 200 {
      assert a.table.rows == t.rows[t.nextId := Site(name.value, category.value, description.value)];
    }
    var u := UpdateRoute(t, id, name, category, description);
    if u.status == 200 {
      assert u.table.rows == t.rows[id := Site(name.value, category.value, description.value)];
    }
  }
}

=== FILE: text.dfy ===
/** The Python string operations the assistant relies on: str.isspace, str.lower, str.strip
    and the `in` substring test. */
module Text {

  /** The characters Python's str.strip() removes when called without arguments. */
  predicate IsSpace(c: char) {
    || c == ' '
    || ('\t' <= c <= '\r')
    || ('\U{1C}' <= c <= '\U{1F}')
    || c == '\U{85}' || c == '\U{A0}' || c == '\U{1680}'
    || ('\U{2000}' <= c <= '\U{200A}')
    || c == '\U{2028}' || c == '\U{2029}' || c == '\U{202F}' || c == '\U{205F}' || c == '\U{3000}'
  }

  predicate AllSpace(s: string) {
    forall k :: 0 <= k < |s| ==> IsSpace(s[k])
  }

  /** A string with nothing for strip() to remove. */
  predicate Stripped(s: string) {
    s == [] || (!IsSpace(s[0]) && !IsSpace(s[|s| - 1]))
  }

  /** `s` is `r` surrounded by whitespace only. */
  ghost predicate SpacePadded(s: string, r: string) {
    exists i :: PaddedAt(s, r, i)
  }

  /** `r` occurs in `s` at `i` with only whitespace before and after it. */
  predicate PaddedAt(s: string, r: string, i: int) {
    0 <= i <= |s| - |r| && s[i..i + |r|] == r && AllSpace(s[..i]) && AllSpace(s[i + |r|..])
  }

  function LowerChar(c: char): char {
    if 'A' <= c <= 'Z' then (c as int + 32) as char else c
  }

  /** str.lower() on the ASCII letters; LowerSpec states it character by character. */
  function Lower(s: string): string {
    if |s| == 0 then [] else [LowerChar(s[0])] + Lower(s[1..])
  }

  lemma {:induction false} LowerSpec(s: string)
    ensures |Lower(s)| == |s|
    ensures forall k :: 0 <= k < |s| ==> Lower(s)[k] == LowerChar(s[k])
    decreases |s|
  {
    if |s| > 0 {
      LowerSpec(s[1..]);
    }
  }

  /** Drops the leading whitespace. */
  function TrimStart(s: string): string {
    if |s| > 0 && IsSpace(s[0]) then TrimStart(s[1..]) else s
  }

  /** Drops the trailing whitespace. */
  function TrimEnd(s: string): string {
    if |s| > 0 && IsSpace(s[|s| - 1]) then TrimEnd(s[..|s| - 1]) else s
  }

  /** str.strip(). Its meaning is stated by StripSpec; keeping the function free of
      postconditions keeps every proof that merely mentions a cache key cheap. */
  function Strip(s: string): string {
    TrimEnd(TrimStart(s))
  }

  lemma {:induction false} TrimStartSpec(s: string)
    ensures var r := TrimStart(s);
      && |r| <= |s| && r == s[|s| - |r|..]
      && AllSpace(s[..|s| - |r|])
      && (r == [] || !IsSpace(r[0]))
    decreases |s|
  {
    if |s| > 0 && IsSpace(s[0]) {
      TrimStartSpec(s[1..]);
      var r := TrimStart(s[1..]);
      assert s[..|s| - |r|] == [s[0]] + s[1..][..|s| - 1 - |r|];
    }
  }

  lemma {:induction false} TrimEndSpec(s: string)
    ensures var r := TrimEnd(s);
      && |r| <= |s| && r == s[..|r|]
      && AllSpace(s[|r|..])
      && (r == [] || !IsSpace(r[|r| - 1]))
    decreases |s|
  {
    if |s| > 0 && IsSpace(s[|s| - 1]) {
      var init := s[..|s| - 1];
      TrimEndSpec(init);
      var r := TrimEnd(init);
      assert s[|r|..] == init[|r|..] + [s[|s| - 1]];
    }
  }

  /** strip() leaves `s` without its leading and trailing whitespace and removes nothing else. */
  lemma StripSpec(s: string)
    ensures Stripped(Strip(s))
    ensures SpacePadded(s, Strip(s))
  {
    var t := TrimStart(s);
    TrimStartSpec(s);
    var r := TrimEnd(t);
    TrimEndSpec(t);
    var i := |s| - |t|;
    assert s[i..i + |r|] == r;
    assert s[i + |r|..] == t[|r|..];
    assert PaddedAt(s, r, i);
  }

  /** The cache key of a place name: name.lower().strip(). */
  function Normalize(s: string): string {
    Strip(Lower(s))
  }

  /** Python's `pattern in s` for strings. */
  predicate Contains(s: string, pattern: string) {
    exists i | 0 <= i <= |s| - |pattern| :: OccursAt(s, pattern, i)
  }

  predicate OccursAt(s: string, pattern: string, i: int) {
    0 <= i <= |s| - |pattern| && s[i..i + |pattern|] == pattern
  }

  /** A string contains whatever sits between any prefix and any suffix of it... */
  lemma ContainsOf(before: string, pattern: string, after: string)
    ensures Contains(before + pattern + after, pattern)
  {
    var s := before + pattern + after;
    assert s[|before|..|before| + |pattern|] == pattern;
    assert OccursAt(s, pattern, |before|);
  }

  /** ...and contains nothing else: every occurrence splits the string around it. */
  lemma ContainsSplit(s: string, pattern: string) returns (before: string, after: string)
    requires Contains(s, pattern)
    ensures s == before + pattern + after
  {
    var i :| 0 <= i <= |s| - |pattern| && OccursAt(s, pattern, i);
    before, after := s[..i], s[i + |pattern|..];
    assert s == s[..i] + s[i..i + |pattern|] + s[i + |pattern|..];
  }

  /** Stripping twice is stripping once. */
  lemma StripIdempotent(s: string)
    ensures Strip(Strip(s)) == Strip(s)
  {
    StripSpec(s);
  }

  lemma LowerIdempotent(s: string)
    ensures Lower(Lower(s)) == Lower(s)
  {
    LowerSpec(s);
    LowerSpec(Lower(s));
  }

  lemma {:induction false} LowerTrimStart(s: string)
    ensures Lower(TrimStart(s)) == TrimStart(Lower(s))
    decreases |s|
  {
    if |s| > 0 {
      assert Lower(s) == [LowerChar(s[0])] + Lower(s[1..]);
      assert Lower(s)[0] == LowerChar(s[0]);
      assert Lower(s)[1..] == Lower(s[1..]);
      if IsSpace(s[0]) {
        LowerTrimStart(s[1..]);
      }
    }
  }

  /** Lower-casing all but the last character is the same as lower-casing all and then dropping the last. */
  lemma LowerInit(s: string)
    requires |s| > 0
    ensures |Lower(s)| == |s|
    ensures Lower(s)[..|s| - 1] == Lower(s[..|s| - 1])
    ensures Lower(s)[|s| - 1] == LowerChar(s[|s| - 1])
  {
    LowerSpec(s);
    LowerSpec(s[..|s| - 1]);
  }

  lemma {:induction false} LowerTrimEnd(s: string)
    ensures Lower(TrimEnd(s)) == TrimEnd(Lower(s))
    decreases |s|
  {
    if |s| > 0 {
      LowerInit(s);
      if IsSpace(s[|s| - 1]) {
        LowerTrimEnd(s[..|s| - 1]);
      }
    }
  }

  /** Lower-casing does not change what strip() removes. */
  lemma LowerStrip(s: string)
    ensures Lower(Strip(s)) == Strip(Lower(s))
  {
    LowerTrimStart(s);
    LowerTrimEnd(TrimStart(s));
  }

  /** A normalized name is its own key: the cache never re-normalizes differently. */
  lemma NormalizeIdempotent(s: string)
    ensures Normalize(Normalize(s)) == Normalize(s)
  {
    calc {
      Normalize(Normalize(s));
      Strip(Lower(Strip(Lower(s))));
      { LowerStrip(Lower(s)); }
      Strip(Strip(Lower(Lower(s))));
      { LowerIdempotent(s); }
      Strip(Strip(Lower(s)));
      { StripIdempotent(Lower(s)); }
      Normalize(s);
    }
  }

  /** Whatever a slice of `s` contains, `s` contains too. */
  lemma ContainsInSlice(s: string, i: int, j: int, pattern: string)
    requires 0 <= i <= j <= |s|
    requires Contains(s[i..j], pattern)
    ensures Contains(s, pattern)
  {
    var k :| 0 <= k <= (j - i) - |pattern| && OccursAt(s[i..j], pattern, k);
    forall m | 0 <= m < |pattern|
      ensures s[i + k + m] == pattern[m]
    {
      assert s[i..j][k..k + |pattern|][m] == pattern[m];
    }
    assert s[i + k..i + k + |pattern|] == pattern;
    assert OccursAt(s, pattern, i + k);
  }
}

=== FILE: weather.dfy ===
/** analyze_weather and choose_weather over an hourly forecast series. The series is the
    open-meteo reply, an input here. */
module Weather {
  import opened Common

  /** One forecast hour. `hour` counts hours from today's midnight (the series spans
      several days, so it may be negative or past 23); entries are on the hour. */
  datatype Sample = Sample(hour: int, temp: real, code: int)

  datatype Condition = Good | Cold | Hot | Stormy

  /** The text analyze_weather picks and its "suggest another time" flag. */
  datatype Verdict = Verdict(condition: Condition, unfavourable: bool)

  const HotAbove: real := 35.0
  const ColdBelow: real := 10.0
  /** Closing time is 18:00; forecast hours before it are still usable. */
  const ClosingHour: int := 18

  /** Rain and thunderstorm weather codes. */
  predicate Severe(code: int) {
    code in {61, 63, 65, 95}
  }

  /** analyze_weather: the tests run in order hot, severe, cold. */
  function Analyze(temp: real, code: int): (r: Verdict)
    ensures r.unfavourable <==> (temp > HotAbove || Severe(code))
    ensures r.unfavourable <==> (r.condition == Hot || r.condition == Stormy)
    ensures r.condition == Hot <==> temp > HotAbove
    ensures r.condition == Stormy <==> (temp <= HotAbove && Severe(code))
    ensures r.condition == Cold <==> (temp <= HotAbove && !Severe(code) && temp < ColdBelow)
  {
    if temp > HotAbove then Verdict(Hot, true)
    else if Severe(code) then Verdict(Stormy, true)
    else if temp < ColdBelow then Verdict(Cold, false)
    else Verdict(Good, false)
  }

  /** The forecast hour that holds visit minute `minute` of today: strftime("%H:00") drops
      the minutes. */
  function TargetHour(minute: int): int {
    minute / 60
  }

  /** `times.index(target_time)`: the first entry of the target hour. */
  function HourIndex(series: seq<Sample>, hour: int): (r: Option<nat>)
    ensures r.None? <==> forall i :: 0 <= i < |series| ==> series[i].hour != hour
    ensures r.Some? ==> r.value < |series| && series[r.value].hour == hour
    ensures r.Some? ==> forall i :: 0 <= i < r.value ==> series[i].hour != hour
  {
    FindFirst(series, (s: Sample) => s.hour == hour)
  }

  /** No entry before position `i` has the hour of entry `i`. */
  predicate FirstOfHour(series: seq<Sample>, i: int)
    requires 0 <= i < |series|
  {
    forall j :: 0 <= j < i ==> series[j].hour != series[i].hour
  }

  /** choose_weather without the flag: the sample of the requested hour, if the series has it. */
  function ExactHour(series: seq<Sample>, minute: int): (r: Option<Sample>)
    ensures r.None? <==> forall i :: 0 <= i < |series| ==> series[i].hour != TargetHour(minute)
    ensures r.Some? ==> r.value.hour == TargetHour(minute) && r.value in series
    ensures forall i :: 0 <= i < |series| && series[i].hour == TargetHour(minute) && FirstOfHour(series, i) ==> r == Some(series[i])
  {
    match HourIndex(series, TargetHour(minute))
    case None => None
    case Some(i) => Some(series[i])
  }

  /** The test choose_weather applies to the one entry it inspects when looking ahead.
      It is `temp < 35 or code not severe`, so a hot but dry hour passes. */
  predicate LookAheadAccepts(s: Sample) {
    s.hour < ClosingHour && (s.temp < HotAbove || !Severe(s.code))
  }

  /** How the look-ahead test relates to analyze_weather: before closing it accepts every
      hour analyze_weather finds favourable, and the unfavourable hours it accepts are the
      very hot dry ones and the rainy ones under 35 degrees. It rejects only hours of 35
      degrees or more that are also rainy, which analyze_weather calls very hot or stormy,
      and every hour from closing time on. */
  lemma LookAheadAcceptsVersusAnalyze(s: Sample)
    ensures s.hour >= ClosingHour ==> !LookAheadAccepts(s)
    ensures s.hour < ClosingHour && !Analyze(s.temp, s.code).unfavourable ==> LookAheadAccepts(s)
    ensures s.hour < ClosingHour ==>
      (LookAheadAccepts(s) && Analyze(s.temp, s.code).unfavourable
       <==> (s.temp > HotAbove && !Severe(s.code)) || (s.temp < HotAbove && Severe(s.code)))
    ensures s.hour < ClosingHour && !LookAheadAccepts(s) ==> Analyze(s.temp, s.code) == Verdict(if s.temp > HotAbove then Hot else Stormy, true)
  {
  }

  /** choose_weather with the flag set. The loop returns on its first iteration either way,
      so only the entry right after the target hour is examined. */
  function LookAhead(series: seq<Sample>, minute: int): (r: Result<Option<Sample>, Fault>)
    ensures r == Failure(HourNotInForecast) <==> HourIndex(series, TargetHour(minute)).None?
    ensures r.Failure? ==> r.error == HourNotInForecast
    ensures r.Success? ==>
      var next := HourIndex(series, TargetHour(minute)).value + 1;
      && (r.value.Some? <==> (next < |series| && LookAheadAccepts(series[next])))
      && (r.value.Some? ==> r.value.value == series[next])
  {
    match HourIndex(series, TargetHour(minute))
    case None => Failure(HourNotInForecast)
    case Some(i) =>
      if i + 1 < |series| then
        if LookAheadAccepts(series[i + 1]) then Success(Some(series[i + 1])) else Success(None)
      else Success(None)
  }

  /** Entries after the next one never matter to the look-ahead. */
  lemma LookAheadExaminesOnlyNext(series: seq<Sample>, other: seq<Sample>, minute: int)
    requires HourIndex(series, TargetHour(minute)).Some?
    requires var i := HourIndex(series, TargetHour(minute)).value;
      (i + 2 <= |series| && i + 2 <= |other| && series[..i + 2] == other[..i + 2])
      || (i + 1 == |series| && i + 1 == |other| && series == other)
    ensures LookAhead(other, minute) == LookAhead(series, minute)
  {
    var h := TargetHour(minute);
    var i := HourIndex(series, h).value;
    assert series[..i + 1] == other[..i + 1];
    assert forall j :: 0 <= j <= i ==> series[j] == other[j];
    assert HourIndex(other, h) == Some(i);
  }

  /** A 40 degree clear-sky hour after the target passes the look-ahead test, although
      analyze_weather calls it very hot. */
  lemma LookAheadAcceptsHotClearHour(series: seq<Sample>, minute: int)
    requires HourIndex(series, TargetHour(minute)).Some?
    requires var i := HourIndex(series, TargetHour(minute)).value;
      i + 1 < |series| && series[i + 1].hour < ClosingHour && series[i + 1].temp == 40.0 && series[i + 1].code == 0
    ensures LookAhead(series, minute).Success? && LookAhead(series, minute).value.Some?
    ensures Analyze(LookAhead(series, minute).value.value.temp, LookAhead(series, minute).value.value.code).unfavourable
  {
  }

  /** An hourly series: each entry is one hour after the previous one. */
  predicate Consecutive(series: seq<Sample>) {
    forall i :: 0 < i < |series| ==> series[i].hour == series[i - 1].hour + 1
  }

  /** On an hourly series a look-ahead answer is the next hour of the same day, before
      closing time. */
  lemma {:induction false} LookAheadIsLaterSameDay(series: seq<Sample>, minute: int)
    requires 0 <= minute < 1440
    requires Consecutive(series)
    requires LookAhead(series, minute).Success? && LookAhead(series, minute).value.Some?
    ensures var s := LookAhead(series, minute).value.value;
      s.hour == TargetHour(minute) + 1 && TargetHour(minute) < s.hour < ClosingHour
  {
    var i := HourIndex(series, TargetHour(minute)).value;
    assert series[i + 1].hour == series[i].hour + 1;
  }
}
